=== FILE: README.md ===
# ModularCLI argument engine, modelled in Dafny

ModularCLI (package `cli`) lets a Go program declare sub-commands, each with typed
flags and positional parameters. Optional validators can be attached to both.
The program then parses the process arguments against those declarations. This
project models the engine that does the work:

- **registration** — `AddCommand`, `AddCommandArgs`, `AddCommandParameters` and `CreateCLI`.
  It builds a registry of commands from sub-command declarations and rejects the
  `TypeInvalid` type tag.
- **dispatch** — `Parse`. It needs at least two raw arguments and picks the
  command named by the second one. It then runs four steps and stops at the first
  error:
  1. positional extraction;
  2. parameter validation;
  3. flag parsing;
  4. flag validation.
- **positional extraction** — `removeIndex` and `parseParameters`. Each parameter, in
  visiting order, takes the token at its position in a working copy of the tokens
  after the sub-command name. That token is then spliced out.
- **validation** — `validateArguments` and `validateParameters`. These are
  early-exit scans. A required flag that no raw token mentions fails. Otherwise a
  validator, if set, decides.
- **the typed-value union and presence checks** — `StringArgument`, `IntArgument`
  and `BoolArgument`, the textual `IsPresent` test of a flag, and the accessors of
  a positional `Parameter`.

Modules:

- `CliTypes` (types.dfy): shared vocabulary — options, type tags, dynamic
  values, error kinds, and map enumeration orders.
- `Strings` (strings.dfy): substring search.
- `Flags` (flags.dfy): flag descriptors and typed arguments.
- `Parameters` (parameter.dfy): positional parameters.
- `Positional` (positional.dfy): extraction.
- `Validation` (validation.dfy): the two scans.
- `Cli` (cli.dfy): commands, the `CLI` registry class, `Parse` and `CreateCLI`.
- `Scenario` (scenario.dfy): the repository's example program, with lemmas stating what
  the engine yields on it.

Go map iteration order is unspecified, and the engine ranges over maps in five
places:
- registration;
- `Parse`'s dispatch loop over the commands (cli/cli.go:116);
- extraction;
- the parameter scan;
- the flag scan.

The dispatch loop's order cannot change its outcome: map keys are unique, and
the loop returns at the one key equal to the second raw argument. `Parse`
therefore looks that name up directly. Each of the other four takes its own
explicit visiting order, a sequence listing every key once. Extraction and the
parameter scan range over the same map separately, so `RunCommand` and `Parse`
take two parameter orders. Each property either holds for every such order or
says how it depends on it.

## Model

| member | source | states |
|---|---|---|
| `Strings.Contains` | cli/flags.go:24 | `Contains(s, sub)` holds exactly when `sub` occurs at some index of `s` (so always for the empty string) |
| `Flags.Flag.IsPresent` | cli/flags.go:21-27 | the scan over the raw tokens returns true exactly when some token contains `--<name>` |
| `Flags.LongerNameCountsAsPresent` | cli/flags.go:24 | the check is a substring test: the token `--filename` makes the flag `file` present |
| `Flags.NotPresentInEmptyArgs` | cli/flags.go:22-26 | no flag is present in an empty token list |
| `Flags.PresentMonotone` | cli/argument.go:21-27 | adding tokens never turns presence from true to false |
| `Flags.ShortTokensAbsent` | cli/flags.go:23-25 | tokens shorter than `--<name>` never make the flag present |
| `Flags.ExactTokenIsPresent` | cli/flags.go:23-25 | a token equal to `--<name>` makes the flag present |
| `Flags.TypedArgument.Current` | cli/flags.go:36-64 | the value an argument holds is of the kind its variant names and is never nil |
| `Flags.TypedArgument.GetString` | cli/flags.go:41 | answers exactly for the string variant, with the value it holds |
| `Flags.TypedArgument.GetBool` | cli/flags.go:61 | answers exactly for the bool variant, with the value it holds |
| `Flags.TypedArgument.GetInt` | cli/flags.go:51 | answers exactly for the int variant, with the value it holds |
| `Flags.TypedArgument.GetArg` | cli/flags.go:44-64 | returns the embedded descriptor for every variant. With the one accessor that answers, it determines the argument. `Flags.ExactlyOneAccessor` states that the result is the embedded descriptor |
| `Flags.ExactlyOneAccessor` | cli/argument.go:36-64 | exactly one of the three accessors answers for every variant: its own, with its value, while the other two are nil. For a well-typed argument it is the one the descriptor's type tag names. `GetArg` returns the embedded descriptor for every variant |
| `Flags.TypedArgument.WithValue` | cli/cli.go:128 | what the flag parser writes through a value pointer: a value of the argument's own kind replaces the current one, anything else leaves the argument as it is; the descriptor and kind never change |
| `Flags.WithValueKeepsDescriptor` | cli/cli.go:128 | writing a value keeps the descriptor and well-typedness; writing back the current value changes nothing; writing a value twice is writing it once |
| `Parameters.Parameter.IsPresent` | cli/parameter.go:18-20 | as written: true exactly when there are more raw arguments than `position + 1`; `Positional.IsPresentVsExtraction` relates it to extraction for all inputs |
| `Parameters.Parameter.IsPresentAfterCommand` | cli/parameter.go:18-20 | corrected check: true exactly when a token exists at `position` among the tokens after the sub-command name |
| `Parameters.Parameter.GetInt` | cli/parameter.go:22-28 | answers exactly when the value holds an int, and then with that int |
| `Parameters.Parameter.GetBool` | cli/parameter.go:29-35 | answers exactly when the value holds a bool, and then with that bool |
| `Parameters.Parameter.GetString` | cli/parameter.go:36-39 | always answers; a string value comes back unchanged, any other value goes through the formatter |
| `Parameters.StoredTokenReadsAsString` | cli/parameter.go:22-39 | once extraction has stored a token, the parameter reads back as that token through `GetString` and as nil through `GetInt` and `GetBool` |
| `Positional.RemoveIndex` | cli/cli.go:90-94 | the result is one shorter. Elements before the index are kept, later ones shift left by one, and exactly the element at the index is dropped (multiset) |
| `Positional.Extract` | cli/cli.go:102-109 | on success, one token is read per parameter and the tokens left number the input's length minus the number of parameters. On failure, the first parameter not handled has a position at or beyond the current working length, and that is the error reported |
| `Positional.Bind` | cli/cli.go:106 | the first parameters, one per token read, hold their token as a string, and the others are unchanged |
| `Positional.ParseParameters` | cli/cli.go:96-110 | with no parameters the tokens come back unchanged. Otherwise the loop returns exactly the remaining tokens or the error of `Extract`, and the parameters with the tokens bound as `Bind` says |
| `Positional.HandledPositionsInRange` | cli/cli.go:103-106 | every parameter handled at step `j` had its position below the working length, the input's length minus `j` |
| `Positional.ExtractFailsIff` | cli/cli.go:103-105 | extraction fails exactly when some parameter `i` has a position at or beyond the input's length minus `i` |
| `Positional.ExtractConservesTokens` | cli/cli.go:106-109 | on success, the tokens read plus the tokens left are exactly the input tokens, as a multiset |
| `Positional.ExtractIgnoresValues` | cli/cli.go:103-107 | extraction depends only on positions: parameters with the same positions extract the same tokens |
| `Positional.DescendingPositionsReadOriginal` | cli/cli.go:102-108 | with strictly decreasing positions, every parameter reads the token at its position in the original sequence |
| `Positional.DescendingOrderReadsAll` | cli/cli.go:102-108 | over `x y z`, positions 2, 1, 0 read `z y x` and leave nothing |
| `Positional.AscendingOrderFails` | cli/cli.go:102-108 | over `x y z`, positions 0, 1, 2 read `x` then `z` and then fail: position 2 against one remaining token |
| `Positional.IsPresentVsExtraction` | cli/parameter.go:18-20 | for every parameter and raw arguments, the presence check as written disagrees with extraction of that parameter exactly when the tokens after the sub-command name number its position. Then the check says present and extraction fails; an absent verdict always means extraction fails |
| `Positional.ParameterIsPresentOffByOne` | cli/parameter.go:18-20 | with raw arguments `prog test`, the presence check as written accepts position 0 although extraction has no token for it |
| `Positional.IsPresentAfterCommandMatchesExtraction` | cli/cli.go:103-105 | the corrected presence check holds exactly when extracting that parameter alone succeeds |
| `Validation.CheckArgument` | cli/cli.go:62-72 | a required flag absent from the raw tokens gives `RequiredMissing` before its validator is consulted. Otherwise the flag fails only with its validator's message, and it passes exactly when `ArgumentPasses` holds |
| `Validation.ValidateArguments` | cli/cli.go:60-75 | the scan passes exactly when every flag passes |
| `Validation.ArgumentScanReportsFirstFailure` | cli/cli.go:61-72 | a failing flag scan reports the error of the first failing flag, in visiting order |
| `Validation.ArgumentOrderIrrelevant` | cli/cli.go:61 | whether the flag scan passes does not depend on the visiting order |
| `Validation.RequiredAbsentFails` | cli/cli.go:63-65 | a required flag that no token mentions makes the scan fail, wherever it is visited |
| `Validation.CheckParameter` | cli/cli.go:79-85 | a parameter fails only with its validator's message, and passes exactly when it has no validator or its validator accepts |
| `Validation.ValidateParameters` | cli/cli.go:77-88 | the scan passes exactly when every parameter passes, so a parameter without a validator never makes it fail |
| `Validation.ParameterScanReportsFirstFailure` | cli/cli.go:78-85 | a failing parameter scan reports the error of the first failing parameter |
| `Validation.ParameterOrderIrrelevant` | cli/cli.go:78 | whether the parameter scan passes does not depend on the visiting order |
| `Cli.EmptyCommand` | cli/cli.go:20-24 | a new command has the given policy, no flags and no parameters |
| `Cli.BindFlag` | cli/cli.go:29-47 | `TypeInvalid` is rejected. The other tags create the variant of that type, holding the default, well-typed, with the descriptor |
| `Cli.RegisterFlag` | cli/cli.go:27-49 | `TypeInvalid` fails and changes nothing. Otherwise exactly one entry is added under the flag's name, and all other flags and parameters are kept. The entry carries the descriptor and validator, the variant its tag names and the default |
| `Cli.RegisterParam` | cli/cli.go:51-58 | `TypeInvalid` fails and changes nothing. Otherwise the declaration is stored under its name and nothing else changes |
| `Cli.AddFlags` | cli/cli.go:147-152 | the flag loop fails exactly when some declaration has `TypeInvalid`, and keeps the policy and the parameters |
| `Cli.AddParams` | cli/cli.go:153-158 | the parameter loop fails exactly when some declaration has `TypeInvalid`, and keeps the policy and the flags |
| `Cli.BuildCommand` | cli/cli.go:146-158 | a built command satisfies the registry invariant and has the declared policy |
| `Cli.BuildCommandFailsIff` | cli/cli.go:145-158 | building fails exactly when some flag or parameter has `TypeInvalid`, and an invalid flag is reported first |
| `Cli.AddFlagsBindsDeclarations` | cli/cli.go:27-49 | registering distinct new flags adds exactly their names and keeps the flags already there. Each declaration ends up bound to its default, descriptor and validator |
| `Cli.AddParamsStoresDeclarations` | cli/cli.go:51-58 | registering parameters adds exactly their names and keeps the others. Each name holds the last declaration that uses it |
| `Cli.BuiltCommandHoldsDeclarations` | cli/cli.go:141-161 | a built command holds exactly the declared flags, bound to their defaults, and the declared parameters |
| `Cli.StoreParams` | cli/cli.go:106 | writing values through the parameter pointers keeps the keys and changes nothing but values. Parameters not visited are untouched |
| `Cli.StoreParamsReadsBack` | cli/cli.go:102-106 | with no name visited twice, every visited name ends up holding the parameter written for it |
| `Cli.StoreParamsUnchanged` | cli/cli.go:106 | writing back the parameters already held changes nothing |
| `Cli.ApplyParsed` | cli/cli.go:128 | the flag parser's values land in the matching flags' value slots. Keys, validators, descriptors and kinds are kept, and unparsed flags are unchanged |
| `Cli.ApplyParsedTwice` | cli/cli.go:128 | applying the same parsed values twice is applying them once |
| `Cli.BindParams` | cli/cli.go:102-108 | after extraction, the `i`-th visited parameter holds the `i`-th token read, as a string, and keeps its validator. All other parameters and every flag are unchanged |
| `Cli.RunCommand` | cli/cli.go:120-136 | the four steps keep the policy, the key sets, the registry invariant and the visiting orders. The parameters end up as extraction, in its own visiting order, bound them |
| `Cli.ReextractReadsSame` | cli/cli.go:102-107 | once extraction has written its tokens, extracting again reads the same tokens |
| `Cli.RebindIsStable` | cli/cli.go:106 | once extraction has written its tokens, writing them again changes nothing |
| `Cli.RunCommandIdempotent` | cli/cli.go:120-136 | re-running the four steps on the command a run produced, under the same visiting orders, gives the same command and error |
| `Cli.ParameterScanOrderFree` | cli/cli.go:77-88 | the parameter scan over any enumeration passes exactly when every parameter in the map passes |
| `Cli.ArgumentScanOrderFree` | cli/cli.go:60-75 | the flag scan over any enumeration passes exactly when every flag in the map passes |
| `Cli.RunCommandSucceedsIff` | cli/cli.go:120-136 | a run succeeds exactly when four things hold: extraction finds a token for every parameter; every bound parameter passes; the flag parser accepts the rest; and every flag then passes. Only extraction depends on a visiting order; the two scans enter through order-free conditions |
| `Cli.FlagsUntouchedBeforeFlagParse` | cli/cli.go:120-127 | a run that stops at extraction or at parameter validation reports that error (a validator error in the second case) and leaves every flag as it was |
| `Cli.RunCommandAfterParameters` | cli/cli.go:128-135 | once extraction and parameter validation pass, a flag-parser failure is the run's error and leaves every flag as it was. Otherwise the parsed values are written into the flags and the error is the flag scan's |
| `Cli.RunSteps` | cli/cli.go:120-136 | the sequence of calls computes exactly `RunCommand` |
| `Cli.CLI.constructor` | cli/cli.go:142-144 | a new registry is empty |
| `Cli.CLI.AddCommand` | cli/cli.go:19-25 | the registry maps `name` to a fresh empty command with the given policy, and nothing else changes |
| `Cli.CLI.AddCommandArgs` | cli/cli.go:27-49 | `TypeInvalid` fails and changes nothing, even for a name not registered. For a registered name the registry changes exactly as `RegisterFlag` says: on error not at all, on success only the named command |
| `Cli.CLI.AddCommandParameters` | cli/cli.go:51-58 | `TypeInvalid` fails and changes nothing, even for a name not registered. For a registered name the registry changes exactly as `RegisterParam` says |
| `Cli.CLI.Parse` | cli/cli.go:112-139 | fewer than two arguments fail with `InsufficientArguments` and an unknown name with `UnknownCommand`, both without change. Otherwise the named command is replaced by the outcome of `RunCommand` and its error is returned |
| `Cli.CLI.AddSubCommand` | cli/cli.go:146-158 | one iteration of `CreateCLI` reports the build error, or stores the built command under its name and changes nothing else |
| `Cli.CLI.AddFlagDecls` | cli/cli.go:147-152 | the flag loop of `CreateCLI` calls `AddCommandArgs` per declaration, in order, and stops at the first error. It reports `AddFlags`' error, or on success stores `AddFlags`' command under the name and changes nothing else |
| `Cli.CLI.AddParamDecls` | cli/cli.go:153-158 | the parameter loop of `CreateCLI` calls `AddCommandParameters` per declaration, in order, and stops at the first error. It reports `AddParams`' error, or on success stores `AddParams`' command under the name and changes nothing else |
| `Cli.CreateCLI` | cli/cli.go:141-161 | succeeds exactly when every declaration builds, and then holds exactly the built commands. Otherwise it returns no registry and the error of the first failing declaration in visiting order |
| `Scenario.TestFlagsRegister` | test/test.go:14-42 | the three flags of `test` register, each bound to its default |
| `Scenario.TestCommandBuilds` | test/test.go:11-57 | the example declarations are registrable and build the expected command |
| `Scenario.RunWithInstance` | test/test.go:43-54 | the run binds the token after `test` to `instance_type`. A token without `s3` fails with the parameter validator's message and leaves the flags as declared. Otherwise a flag-parser failure is the run's error and leaves the flags as declared, and a parser success writes its values into the flags and leaves the error to the flag scan |
| `Scenario.FlagScanIsFileCheck` | test/test.go:15-41 | for the example flags, the flag scan comes down to the check of `file` under every visiting order |
| `Scenario.RunWithFile` | test/test.go:15-27 | `prog test s3 --file <name>` binds `s3` and `name`. It fails exactly when `name` lacks `.ext`, with that validator's message |
| `Scenario.AcceptsValidInvocation` | test/test.go:59-72 | `prog test s3 --file a.ext` succeeds. The four values the example prints are `s3`, `a.ext`, `false` and `4` |
| `Scenario.RejectsWrongExtension` | test/test.go:21-26 | `prog test s3 --file data.txt` fails with `filetype must be .ext` |
| `Scenario.RejectsMissingFile` | test/test.go:17-20 | `prog test s3` fails with the required flag `file` missing, under every visiting order |
| `Scenario.RejectsWrongInstance` | test/test.go:48-53 | `prog test ec2 --file a.ext` fails with the parameter validator's message, and no flag is changed |
| `Scenario.RejectsMissingInstance` | test/test.go:44-47 | `prog test` fails with position 0 out of range of 0 tokens, while the presence check as written says the parameter is present |

## Left out

- Flag syntax: the flag set's own parser (`FlagSet.Parse`, Go's `flag` package) is a
  function parameter. It receives the sub-command name and the remaining tokens,
  and yields a value per flag name or an error. Its syntax and its help output
  are not modelled.
- A failing flag parse may have written some values already. The model leaves
  the flags unchanged on a parse error.
- `Cli.CLI.Parse`: the raw process arguments are a parameter, not the `os.Args`
  global. Likewise, `Flags.Flag.IsPresent` and `Parameters.Parameter.IsPresent`
  take the raw tokens as a parameter.
- Error-handling policies (exit, panic, continue) are stored with each command
  but never acted on. They matter only inside the flag parser, which is outside
  the model. `log.Fatal` and printing in test/test.go are I/O.
- Error message text is modelled as error kinds. The validator messages of the
  example are kept verbatim.
- `Parameters.Parameter.GetString` takes the formatter for non-string values as a
  parameter in place of `fmt.Sprint`. It states only that a string value comes
  back unchanged.
- `Positional.ParseParameters` returns only the error on failure. The Go function
  also returns the whole `os.Args`, which `Parse` discards.
- `Cli.CLI.AddCommandArgs`: a valid type tag sent to a sub-command name that is
  not registered makes Go dereference a nil command and panic. The model requires
  the name to be registered in that case.
- `Cli.CLI.AddCommandParameters`: likewise, a valid type tag on an unregistered
  name panics in Go on the nil command. The model requires the name to be
  registered in that case.
- `Cli.CLI.AddCommandArgs` requires a default whose type matches the tag. Go
  panics on a mismatch in its type assertion.
- `Cli.CLI.AddCommandArgs` requires a flag name not yet defined in the command.
  Go's flag set panics when a name is defined twice. For the same reasons,
  `Cli.CreateCLI` and `Cli.BuildCommand` require every declaration to satisfy
  `WellDeclared`. This also excludes inputs that Go handles without a panic,
  because it stops before reaching the offending declaration. One example is a
  `TypeInvalid` flag followed by a string flag with an int default. Go returns
  the invalid-type error first.
- Positions are natural numbers. A negative position makes the Go slice index
  panic.
- Pointer identity is not modelled. Commands are values stored in the registry's
  map. A parameter that the caller's declaration and the registry share through a
  pointer is copied, so binding a token updates the registry only. The Go code
  would also update the caller's declaration.
- `GetArg` hands back the descriptor without its validator. A descriptor holding
  a function over the argument type that embeds it cannot be a Dafny datatype,
  so the validator sits beside the descriptor (`FlagDecl`, `FlagEntry`,
  `ParamDecl`).
- cli/argument.go repeats cli/flags.go with `Argument` in place of `Flag`. The
  two are modelled once, as `Flags`.
- cli/subcommand.go declares the flag list as `Arguments`, while cli/cli.go:147
  reads `Flags`. The model follows cli/cli.go.
- The type-tag constants are not part of this model. They are modelled as the
  four-case `ArgType`.
- Which error a failing scan reports depends on the visiting order. It is
  stated relative to a given order (`ArgumentScanReportsFirstFailure`,
  `CreateCLI`), and pass/fail is proved order-free.
- Extraction depends on the visiting order. Go ranges `cmd.Params` afresh on
  every `Parse`, so a second parse of the same arguments may bind differently or
  fail where the first succeeded. `DescendingOrderReadsAll` and
  `AscendingOrderFails` show the same tokens succeeding in one order and failing
  in another. `Cli.RunCommandIdempotent` therefore promises a repeat outcome only
  under the same visiting orders.

## Findings

| source | as written | input that shows it | evidently intended | confidence | as-written member | corrected member |
|---|---|---|---|---|---|---|
| cli/parameter.go:18-20 | `len(os.Args) > p.Position + 1` counts the program name and the sub-command name as if they were positional tokens | raw arguments `prog test` with a parameter at position 0: the check says present, but extraction of the tokens after `test` has nothing at position 0 | `len(os.Args) > p.Position + 2`, i.e. a token exists at `Position` among `os.Args[2:]`, which is what extraction reads | medium, not executed | `Positional.IsPresentVsExtraction` | `Positional.IsPresentAfterCommandMatchesExtraction` |

=== FILE: cli.dfy ===
/** The command registry and dispatcher (cli/cli.go): registration of
    sub-commands, flags and positional parameters, and `Parse`, which selects a
    sub-command by the second raw argument and runs extraction, parameter
    validation, flag parsing and flag validation in that order. */
module Cli {
  import opened CliTypes
  import opened Flags
  import opened Parameters
  import opened Positional
  import opened Validation

  /** A sub-command as a caller declares it: its flags, its positional
      parameters and the error-handling policy of its flag set. */
  datatype SubCommand = SubCommand(flags: seq<FlagDecl>, parameters: seq<ParamDecl>, errorHandler: ErrorHandling)

  /** A registered sub-command: the policy its flag set was created with, its
      bound flags keyed by name and its parameters keyed by name. */
  datatype Command = Command(handler: ErrorHandling, flags: map<string, FlagEntry>, params: map<string, ParamDecl>)

  /** The flag set's own parser, outside this model: given the sub-command
      name and the tokens left after extraction, it fails or yields the values
      it read, keyed by flag name. */
  type FlagParser = (string, seq<string>) -> Result<map<string, Value>>

  /** Every flag is stored under its own name with the variant its type tag
      names, and every parameter under its own name with a valid type tag. */
  predicate CommandValid(c: Command)
  {
    (forall n :: n in c.flags ==> c.flags[n].arg.GetArg().name == n && WellTyped(c.flags[n].arg)) &&
    (forall n :: n in c.params ==> c.params[n].param.name == n && c.params[n].param.argType != TypeInvalid)
  }

  /** A freshly added sub-command: a flag set with the given policy, no flags
      and no parameters. */
  function EmptyCommand(handler: ErrorHandling): (c: Command)
    ensures CommandValid(c) && c.handler == handler && c.flags.Keys == {} && c.params.Keys == {}
  {
    Command(handler, map[], map[])
  }

  /** The typed argument created for a flag: the variant its type tag names,
      holding the default value; `TypeInvalid` is rejected. */
  function BindFlag(f: Flag): (r: Result<TypedArgument>)
    requires MatchesType(f.argType, f.defaultValue)
    ensures r.Failure? <==> f.argType == TypeInvalid
    ensures r.Failure? ==> r.error == InvalidArgumentType(TypeInvalid)
    ensures r.Success? ==> WellTyped(r.value) && r.value.GetArg() == f && r.value.Current() == f.defaultValue
  {
    match f.argType
    case TypeString => Success(StringArgument(f.defaultValue.s, f))
    case TypeBool => Success(BoolArgument(f.defaultValue.b, f))
    case TypeInt => Success(IntArgument(f.defaultValue.i, f))
    case TypeInvalid => Failure(InvalidArgumentType(f.argType))
  }

  /** Registering one flag in a command: rejected for `TypeInvalid`, and
      otherwise exactly one entry, under the flag's name, is added. */
  function RegisterFlag(c: Command, decl: FlagDecl): (r: Result<Command>)
    requires MatchesType(decl.flag.argType, decl.flag.defaultValue)
    ensures r.Failure? <==> decl.flag.argType == TypeInvalid
    ensures r.Failure? ==> r.error == InvalidArgumentType(TypeInvalid)
    ensures r.Success? ==>
      r.value.handler == c.handler && r.value.params == c.params &&
      r.value.flags.Keys == c.flags.Keys + {decl.flag.name} &&
      (forall n :: n in c.flags && n != decl.flag.name ==> r.value.flags[n] == c.flags[n]) &&
      r.value.flags[decl.flag.name].validate == decl.validate &&
      r.value.flags[decl.flag.name].arg.GetArg() == decl.flag &&
      r.value.flags[decl.flag.name].arg.Kind() == decl.flag.argType &&
      r.value.flags[decl.flag.name].arg.Current() == decl.flag.defaultValue
    ensures r.Success? && CommandValid(c) ==> CommandValid(r.value)
  {
    match BindFlag(decl.flag)
    case Failure(e) => Failure(e)
    case Success(arg) => Success(c.(flags := c.flags[decl.flag.name := FlagEntry(arg, decl.validate)]))
  }

  /** Registering one parameter: rejected for `TypeInvalid`, and otherwise
      stored under its name. */
  function RegisterParam(c: Command, decl: ParamDecl): (r: Result<Command>)
    ensures r.Failure? <==> decl.param.argType == TypeInvalid
    ensures r.Failure? ==> r.error == InvalidParameterType(TypeInvalid)
    ensures r.Success? ==>
              r.value.handler == c.handler && r.value.flags == c.flags &&
              r.value.params == c.params[decl.param.name := decl]
    ensures r.Success? && CommandValid(c) ==> CommandValid(r.value)
  {
    if decl.param.argType == TypeInvalid then
      Failure(InvalidParameterType(decl.param.argType))
    else
      Success(c.(params := c.params[decl.param.name := decl]))
  }

  /** The declarations `CreateCLI` can register without a runtime panic:
      every flag default matches its type tag, and no flag name is declared
      twice (the flag set refuses to define a name again). */
  predicate WellDeclared(sub: SubCommand)
  {
    DefaultsMatch(sub.flags) && DistinctNames(sub.flags)
  }

  /** Every declared default has the type its tag names. */
  predicate DefaultsMatch(decls: seq<FlagDecl>)
  {
    forall i :: 0 <= i < |decls| ==> MatchesType(decls[i].flag.argType, decls[i].flag.defaultValue)
  }

  /** No flag name is declared twice. */
  predicate DistinctNames(decls: seq<FlagDecl>)
  {
    forall i, j :: 0 <= i < j < |decls| ==> decls[i].flag.name != decls[j].flag.name
  }

  /** None of the declared names is registered yet. */
  predicate NamesAbsent(decls: seq<FlagDecl>, flags: map<string, FlagEntry>)
  {
    forall i :: 0 <= i < |decls| ==> decls[i].flag.name !in flags
  }

  /** After the first declaration is registered, the remaining ones are still
      distinct and still unregistered. */
  lemma RegisterKeepsRestAbsent(c: Command, decls: seq<FlagDecl>)
    requires decls != [] && DefaultsMatch(decls) && DistinctNames(decls) && NamesAbsent(decls, c.flags)
    requires RegisterFlag(c, decls[0]).Success?
    ensures DefaultsMatch(decls[1..]) && DistinctNames(decls[1..])
    ensures NamesAbsent(decls[1..], RegisterFlag(c, decls[0]).value.flags)
  {
    forall i | 0 <= i < |decls[1..]|
      ensures decls[1..][i].flag.name !in RegisterFlag(c, decls[0]).value.flags
      ensures MatchesType(decls[1..][i].flag.argType, decls[1..][i].flag.defaultValue)
    {
      assert decls[1..][i] == decls[i + 1];
    }
    forall i, j | 0 <= i < j < |decls[1..]| ensures decls[1..][i].flag.name != decls[1..][j].flag.name {
      assert decls[1..][i] == decls[i + 1] && decls[1..][j] == decls[j + 1];
    }
  }

  /** The names of a sequence of flag declarations. */
  function FlagNames(decls: seq<FlagDecl>): set<string>
  {
    set i | 0 <= i < |decls| :: decls[i].flag.name
  }

  /** Registering flags one after another, stopping at the first invalid one.
      It fails exactly when some declaration has `TypeInvalid`. */
  function AddFlags(c: Command, decls: seq<FlagDecl>): (r: Result<Command>)
    requires DefaultsMatch(decls)
    ensures r.Failure? <==> exists i :: 0 <= i < |decls| && decls[i].flag.argType == TypeInvalid
    ensures r.Failure? ==> r.error == InvalidArgumentType(TypeInvalid)
    ensures r.Success? ==>
              r.value.handler == c.handler && r.value.params == c.params
    ensures r.Success? && CommandValid(c) ==> CommandValid(r.value)
    decreases |decls|
  {
    if decls == [] then
      Success(c)
    else
      match RegisterFlag(c, decls[0])
      case Failure(e) => Failure(e)
      case Success(c1) =>
        assert forall i :: 0 < i < |decls| ==> decls[1..][i - 1] == decls[i];
        AddFlags(c1, decls[1..])
  }

  /** Registering parameters one after another, stopping at the first invalid
      one. It fails exactly when some declaration has `TypeInvalid`. */
  function AddParams(c: Command, decls: seq<ParamDecl>): (r: Result<Command>)
    ensures r.Failure? <==> exists i :: 0 <= i < |decls| && decls[i].param.argType == TypeInvalid
    ensures r.Failure? ==> r.error == InvalidParameterType(TypeInvalid)
    ensures r.Success? ==> r.value.handler == c.handler && r.value.flags == c.flags
    ensures r.Success? && CommandValid(c) ==> CommandValid(r.value)
    decreases |decls|
  {
    if decls == [] then
      Success(c)
    else
      match RegisterParam(c, decls[0])
      case Failure(e) => Failure(e)
      case Success(c1) =>
        assert forall i :: 0 < i < |decls| ==> decls[1..][i - 1] == decls[i];
        AddParams(c1, decls[1..])
  }

  /** The command `CreateCLI` builds for one declaration: flags first, then
      parameters, starting from an empty command. */
  function BuildCommand(sub: SubCommand): (r: Result<Command>)
    requires WellDeclared(sub)
    ensures r.Success? ==>
              CommandValid(r.value) && r.value.handler == sub.errorHandler
  {
    match AddFlags(EmptyCommand(sub.errorHandler), sub.flags)
    case Failure(e) => Failure(e)
    case Success(c) => AddParams(c, sub.parameters)
  }

  /** Building a command fails exactly when one of its flags or parameters is
      declared with `TypeInvalid`; an invalid flag is reported first. */
  lemma BuildCommandFailsIff(sub: SubCommand)
    requires WellDeclared(sub)
    ensures BuildCommand(sub).Failure? <==>
      (exists i :: 0 <= i < |sub.flags| && sub.flags[i].flag.argType == TypeInvalid) ||
      (exists i :: 0 <= i < |sub.parameters| && sub.parameters[i].param.argType == TypeInvalid)
    ensures (exists i :: 0 <= i < |sub.flags| && sub.flags[i].flag.argType == TypeInvalid) ==>
      BuildCommand(sub) == Failure(InvalidArgumentType(TypeInvalid))
  {
  }

  /** Updating a key twice keeps only the second value. */
  lemma UpdateTwice<K, V>(m: map<K, V>, k: K, first: V, second: V)
    ensures m[k := first][k := second] == m[k := second]
  {
  }

  /** Registering distinct, not yet registered flags adds exactly their
      names, leaves the flags already there as they were, and binds each
      declaration to an argument that holds its default, carries its
      descriptor and keeps its validator. */
  lemma {:induction false} AddFlagsBindsDeclarations(c: Command, decls: seq<FlagDecl>)
    requires DefaultsMatch(decls) && DistinctNames(decls) && NamesAbsent(decls, c.flags)
    requires AddFlags(c, decls).Success?
    ensures var r := AddFlags(c, decls).value;
      r.flags.Keys == c.flags.Keys + FlagNames(decls) &&
      (forall n :: n in c.flags ==> r.flags[n] == c.flags[n]) &&
      forall i :: 0 <= i < |decls| ==>
        r.flags[decls[i].flag.name].validate == decls[i].validate &&
        r.flags[decls[i].flag.name].arg.GetArg() == decls[i].flag &&
        r.flags[decls[i].flag.name].arg.Current() == decls[i].flag.defaultValue
    decreases |decls|
  {
    if decls != [] {
      var c1 := RegisterFlag(c, decls[0]).value;
      RegisterKeepsRestAbsent(c, decls);
      AddFlagsBindsDeclarations(c1, decls[1..]);
      var r := AddFlags(c, decls).value;
      assert r == AddFlags(c1, decls[1..]).value;
      assert FlagNames(decls) == {decls[0].flag.name} + FlagNames(decls[1..]) by {
        forall n | n in FlagNames(decls) ensures n in {decls[0].flag.name} + FlagNames(decls[1..]) {
          var i :| 0 <= i < |decls| && decls[i].flag.name == n;
          if i > 0 {
            assert decls[1..][i - 1].flag.name == n;
          }
        }
      }
      forall i | 0 < i < |decls|
        ensures r.flags[decls[i].flag.name].validate == decls[i].validate
        ensures r.flags[decls[i].flag.name].arg.GetArg() == decls[i].flag
        ensures r.flags[decls[i].flag.name].arg.Current() == decls[i].flag.defaultValue
      {
        assert decls[1..][i - 1] == decls[i];
      }
    }
  }

  /** The names of a sequence of parameter declarations. */
  function ParamNames(decls: seq<ParamDecl>): set<string>
  {
    set i | 0 <= i < |decls| :: decls[i].param.name
  }

  /** Registering parameters adds exactly their names, leaves the parameters
      not named again as they were, and stores under each name the last
      declaration that uses it. */
  lemma {:induction false} AddParamsStoresDeclarations(c: Command, decls: seq<ParamDecl>)
    requires AddParams(c, decls).Success?
    ensures var r := AddParams(c, decls).value;
      r.params.Keys == c.params.Keys + ParamNames(decls) &&
      (forall n :: n in c.params && n !in ParamNames(decls) ==> r.params[n] == c.params[n]) &&
      forall i :: 0 <= i < |decls| && (forall j :: i < j < |decls| ==> decls[j].param.name != decls[i].param.name) ==>
        r.params[decls[i].param.name] == decls[i]
    decreases |decls|
  {
    if decls != [] {
      var c1 := RegisterParam(c, decls[0]).value;
      AddParamsStoresDeclarations(c1, decls[1..]);
      var r := AddParams(c, decls).value;
      assert r == AddParams(c1, decls[1..]).value;
      assert forall i :: 0 < i < |decls| ==> decls[1..][i - 1] == decls[i];
      assert ParamNames(decls) == {decls[0].param.name} + ParamNames(decls[1..]) by {
        forall n | n in ParamNames(decls) ensures n in {decls[0].param.name} + ParamNames(decls[1..]) {
          var i :| 0 <= i < |decls| && decls[i].param.name == n;
          if i > 0 {
            assert decls[1..][i - 1].param.name == n;
          }
        }
      }
      forall i | 0 <= i < |decls| && (forall j :: i < j < |decls| ==> decls[j].param.name != decls[i].param.name)
        ensures r.params[decls[i].param.name] == decls[i]
      {
        if i == 0 {
          assert decls[0].param.name !in ParamNames(decls[1..]);
        } else {
          assert decls[1..][i - 1] == decls[i];
        }
      }
    }
  }

  /** A built command holds exactly the declared flags and parameters: each
      flag bound to its default with its descriptor and validator, each
      parameter name holding the last declaration that uses it. */
  lemma BuiltCommandHoldsDeclarations(sub: SubCommand)
    requires WellDeclared(sub) && BuildCommand(sub).Success?
    ensures var c := BuildCommand(sub).value;
      c.flags.Keys == FlagNames(sub.flags) && c.params.Keys == ParamNames(sub.parameters) &&
      (forall i :: 0 <= i < |sub.flags| ==>
        c.flags[sub.flags[i].flag.name].validate == sub.flags[i].validate &&
        c.flags[sub.flags[i].flag.name].arg.GetArg() == sub.flags[i].flag &&
        c.flags[sub.flags[i].flag.name].arg.Current() == sub.flags[i].flag.defaultValue) &&
      forall i :: 0 <= i < |sub.parameters| &&
                  (forall j :: i < j < |sub.parameters| ==> sub.parameters[j].param.name != sub.parameters[i].param.name) ==>
        c.params[sub.parameters[i].param.name] == sub.parameters[i]
  {
    var empty := EmptyCommand(sub.errorHandler);
    AddFlagsBindsDeclarations(empty, sub.flags);
    var flagged := AddFlags(empty, sub.flags).value;
    AddParamsStoresDeclarations(flagged, sub.parameters);
  }

  /** The parameters of `params` in the enumeration order `order`. */
  function ParamList(params: map<string, ParamDecl>, order: seq<string>): (ps: seq<Parameter>)
    requires forall i :: 0 <= i < |order| ==> order[i] in params
    ensures |ps| == |order| && forall i :: 0 <= i < |order| ==> ps[i] == params[order[i]].param
  {
    var ds := InOrder(params, order);
    seq(|ds|, i requires 0 <= i < |ds| => ds[i].param)
  }

  /** The parameter `ps[i]` written back under the name `order[i]`, as the
      extractor writes through the map's parameter pointers. */
  function StoreParams(params: map<string, ParamDecl>, order: seq<string>, ps: seq<Parameter>): (r: map<string, ParamDecl>)
    requires |ps| == |order|
    requires forall i :: 0 <= i < |order| ==> order[i] in params && ps[i] == params[order[i]].param.(value := ps[i].value)
    ensures r.Keys == params.Keys
    ensures forall n :: n in params ==>
              r[n] == params[n].(param := params[n].param.(value := r[n].param.value))
    ensures forall n :: n in params && n !in order ==> r[n] == params[n]
    decreases |order|
  {
    if order == [] then
      params
    else
      var next := params[order[0] := params[order[0]].(param := ps[0])];
      assert forall i :: 0 < i < |order| ==> order[1..][i - 1] == order[i] && ps[1..][i - 1] == ps[i];
      assert forall n :: n in next ==> next[n] == params[n].(param := params[n].param.(value := next[n].param.value));
      StoreParams(next, order[1..], ps[1..])
  }

  /** With no name repeated in `order`, each name ends up holding the
      parameter written for it. */
  lemma {:induction false} StoreParamsReadsBack(params: map<string, ParamDecl>, order: seq<string>, ps: seq<Parameter>)
    requires |ps| == |order|
    requires forall i :: 0 <= i < |order| ==> order[i] in params && ps[i] == params[order[i]].param.(value := ps[i].value)
    requires forall i, j :: 0 <= i < j < |order| ==> order[i] != order[j]
    ensures forall i :: 0 <= i < |order| ==> StoreParams(params, order, ps)[order[i]].param == ps[i]
    decreases |order|
  {
    if order != [] {
      var next := params[order[0] := params[order[0]].(param := ps[0])];
      assert forall i :: 0 < i < |order| ==> order[1..][i - 1] == order[i] && ps[1..][i - 1] == ps[i];
      StoreParamsReadsBack(next, order[1..], ps[1..]);
      assert order[0] !in order[1..];
    }
  }

  /** The flag values the parser read, written into the flags' value slots. */
  function ApplyParsed(flags: map<string, FlagEntry>, parsed: map<string, Value>): (r: map<string, FlagEntry>)
    ensures r.Keys == flags.Keys
    ensures forall n :: n in flags ==>
              r[n].validate == flags[n].validate && r[n].arg.GetArg() == flags[n].arg.GetArg() &&
              r[n].arg.Kind() == flags[n].arg.Kind()
    ensures forall n :: n in flags && n in parsed && MatchesType(flags[n].arg.Kind(), parsed[n]) ==>
              r[n].arg.Current() == parsed[n]
    ensures forall n :: n in flags && (n !in parsed || !MatchesType(flags[n].arg.Kind(), parsed[n])) ==>
              r[n] == flags[n]
  {
    map n | n in flags :: if n in parsed then flags[n].(arg := flags[n].arg.WithValue(parsed[n])) else flags[n]
  }

  /** The orders in which `Parse` visits a command's parameters (once to
      extract, once to validate) and its flags enumerate their keys. Go ranges
      the map afresh each time, so the two parameter orders may differ. */
  predicate OrdersFit(c: Command, paramOrder: seq<string>, checkOrder: seq<string>, flagOrder: seq<string>)
  {
    IsEnumeration(paramOrder, c.params.Keys) && IsEnumeration(checkOrder, c.params.Keys) &&
    IsEnumeration(flagOrder, c.flags.Keys)
  }

  /** The command after a parse attempt and the error that ended it, if any. */
  datatype Outcome = Outcome(command: Command, error: Option<Error>)

  /** The extraction `Parse` runs for `cmd`: its parameters, in the order
      `paramOrder`, against the tokens after the sub-command name. */
  function ExtractFor(cmd: Command, args: seq<string>, paramOrder: seq<string>): Extraction
    requires 2 <= |args| && IsEnumeration(paramOrder, cmd.params.Keys)
  {
    Extract(args[2..], ParamList(cmd.params, paramOrder))
  }

  /** The command after extraction wrote the tokens it read: the parameter
      handled `i`-th holds the `i`-th token read, as a string, and every
      other parameter, every validator and every flag is as it was. */
  function BindParams(cmd: Command, paramOrder: seq<string>, values: seq<string>): (c: Command)
    requires IsEnumeration(paramOrder, cmd.params.Keys) && |values| <= |paramOrder|
    ensures c.handler == cmd.handler && c.flags == cmd.flags && c.params.Keys == cmd.params.Keys
    ensures forall i :: 0 <= i < |values| ==>
              c.params[paramOrder[i]].validate == cmd.params[paramOrder[i]].validate &&
              c.params[paramOrder[i]].param == cmd.params[paramOrder[i]].param.(value := StringValue(values[i]))
    ensures forall i :: |values| <= i < |paramOrder| ==> c.params[paramOrder[i]] == cmd.params[paramOrder[i]]
  {
    var ps := ParamList(cmd.params, paramOrder);
    StoreParamsReadsBack(cmd.params, paramOrder, Bind(ps, values));
    cmd.(params := StoreParams(cmd.params, paramOrder, Bind(ps, values)))
  }

  /** The four steps `Parse` runs on the selected command, stopping at the
      first error: extract the positional parameters from the tokens after the
      sub-command name, validate the parameters, parse the remaining tokens
      as flags, validate the flags against the raw arguments. Extraction
      visits the parameters in `paramOrder` and validation in `checkOrder`,
      since each ranges over the map afresh. */
  function RunCommand(name: string, cmd: Command, args: seq<string>, paramOrder: seq<string>,
                      checkOrder: seq<string>, flagOrder: seq<string>, parseFlags: FlagParser): (o: Outcome)
    requires 2 <= |args| && OrdersFit(cmd, paramOrder, checkOrder, flagOrder)
    ensures o.command.handler == cmd.handler
    ensures o.command.flags.Keys == cmd.flags.Keys && o.command.params.Keys == cmd.params.Keys
    ensures CommandValid(cmd) ==> CommandValid(o.command)
    ensures OrdersFit(o.command, paramOrder, checkOrder, flagOrder)
    ensures o.command.params == BindParams(cmd, paramOrder, ExtractFor(cmd, args, paramOrder).values).params
  {
    var e := ExtractFor(cmd, args, paramOrder);
    var c1 := BindParams(cmd, paramOrder, e.values);
    if e.failure.Some? then
      Outcome(c1, e.failure)
    else
      var paramError := ValidateParameters(InOrder(c1.params, checkOrder));
      if paramError.Some? then
        Outcome(c1, paramError)
      else
        match parseFlags(name, e.rest)
        case Failure(flagError) => Outcome(c1, Some(flagError))
        case Success(values) =>
          var c2 := c1.(flags := ApplyParsed(c1.flags, values));
          Outcome(c2, ValidateArguments(InOrder(c2.flags, flagOrder), args))
  }

  /** Writing back the parameters a map already holds changes nothing. */
  lemma {:induction false} StoreParamsUnchanged(params: map<string, ParamDecl>, order: seq<string>, ps: seq<Parameter>)
    requires |ps| == |order|
    requires forall i :: 0 <= i < |order| ==> order[i] in params && ps[i] == params[order[i]].param
    ensures StoreParams(params, order, ps) == params
    decreases |order|
  {
    if order != [] {
      var next := params[order[0] := params[order[0]].(param := ps[0])];
      assert next == params;
      assert forall i :: 0 < i < |order| ==> order[1..][i - 1] == order[i] && ps[1..][i - 1] == ps[i];
      StoreParamsUnchanged(next, order[1..], ps[1..]);
    }
  }

  /** Applying the same parsed values twice is applying them once. */
  lemma ApplyParsedTwice(flags: map<string, FlagEntry>, parsed: map<string, Value>)
    ensures ApplyParsed(ApplyParsed(flags, parsed), parsed) == ApplyParsed(flags, parsed)
  {
    forall n | n in flags && n in parsed
      ensures flags[n].arg.WithValue(parsed[n]).WithValue(parsed[n]) == flags[n].arg.WithValue(parsed[n])
    {
      WithValueKeepsDescriptor(flags[n].arg, parsed[n]);
    }
  }

  /** After extraction has written its tokens, the parameters in visiting
      order are the bound ones, so extracting again reads the same tokens. */
  lemma ReextractReadsSame(cmd: Command, args: seq<string>, paramOrder: seq<string>, c: Command)
    requires 2 <= |args| && IsEnumeration(paramOrder, cmd.params.Keys)
    requires c.params == BindParams(cmd, paramOrder, ExtractFor(cmd, args, paramOrder).values).params
    ensures ParamList(c.params, paramOrder) == Bind(ParamList(cmd.params, paramOrder), ExtractFor(cmd, args, paramOrder).values)
    ensures ExtractFor(c, args, paramOrder) == ExtractFor(cmd, args, paramOrder)
  {
    var ps := ParamList(cmd.params, paramOrder);
    var qs := ParamList(c.params, paramOrder);
    assert qs == Bind(ps, ExtractFor(cmd, args, paramOrder).values);
    ExtractIgnoresValues(args[2..], ps, qs);
  }

  /** After extraction has written its tokens, writing them again changes
      nothing. */
  lemma RebindIsStable(cmd: Command, args: seq<string>, paramOrder: seq<string>, c: Command)
    requires 2 <= |args| && IsEnumeration(paramOrder, cmd.params.Keys)
    requires c.params == BindParams(cmd, paramOrder, ExtractFor(cmd, args, paramOrder).values).params
    ensures ExtractFor(c, args, paramOrder) == ExtractFor(cmd, args, paramOrder)
    ensures BindParams(c, paramOrder, ExtractFor(cmd, args, paramOrder).values) == c
  {
    var values := ExtractFor(cmd, args, paramOrder).values;
    ReextractReadsSame(cmd, args, paramOrder, c);
    var qs := ParamList(c.params, paramOrder);
    assert Bind(qs, values) == qs;
    StoreParamsUnchanged(c.params, paramOrder, qs);
  }

  /** Re-running the four steps on the command a run produced, with the same
      arguments, orders and flag parser, produces that command and error
      again: extraction reads positions only, so it reads the same tokens,
      stores the values already stored, and the parsed flag values are
      already in place. */
  lemma RunCommandIdempotent(name: string, cmd: Command, args: seq<string>, paramOrder: seq<string>,
                             checkOrder: seq<string>, flagOrder: seq<string>, parseFlags: FlagParser)
    requires 2 <= |args| && OrdersFit(cmd, paramOrder, checkOrder, flagOrder)
    ensures var o := RunCommand(name, cmd, args, paramOrder, checkOrder, flagOrder, parseFlags);
      RunCommand(name, o.command, args, paramOrder, checkOrder, flagOrder, parseFlags) == o
  {
    var o := RunCommand(name, cmd, args, paramOrder, checkOrder, flagOrder, parseFlags);
    var e := ExtractFor(cmd, args, paramOrder);
    var c1 := BindParams(cmd, paramOrder, e.values);
    RebindIsStable(cmd, args, paramOrder, o.command);
    var again := RunCommand(name, o.command, args, paramOrder, checkOrder, flagOrder, parseFlags);
    if e.failure.Some? {
      assert o.command == c1;
    } else if ValidateParameters(InOrder(c1.params, checkOrder)).Some? {
      assert o.command == c1;
    } else {
      match parseFlags(name, e.rest)
      case Failure(_) =>
        assert o.command == c1;
      case Success(values) =>
        ApplyParsedTwice(cmd.flags, values);
        assert o.command == c1.(flags := ApplyParsed(cmd.flags, values));
    }
  }

  /** The parameter scan over an enumeration of a map passes exactly when
      every parameter in the map passes, whatever the enumeration order. */
  lemma ParameterScanOrderFree(params: map<string, ParamDecl>, order: seq<string>)
    requires IsEnumeration(order, params.Keys)
    ensures ValidateParameters(InOrder(params, order)).None? <==>
            forall n :: n in params ==> ParameterPasses(params[n])
  {
    var ds := InOrder(params, order);
    if ValidateParameters(ds).None? {
      forall n | n in params ensures ParameterPasses(params[n]) {
        var i :| 0 <= i < |order| && order[i] == n;
        assert ds[i] == params[n];
      }
    }
  }

  /** The flag scan over an enumeration of a map passes exactly when every
      flag in the map passes, whatever the enumeration order. */
  lemma ArgumentScanOrderFree(flags: map<string, FlagEntry>, order: seq<string>, rawArgs: seq<string>)
    requires IsEnumeration(order, flags.Keys)
    ensures ValidateArguments(InOrder(flags, order), rawArgs).None? <==>
            forall n :: n in flags ==> ArgumentPasses(flags[n], rawArgs)
  {
    var es := InOrder(flags, order);
    if ValidateArguments(es, rawArgs).None? {
      forall n | n in flags ensures ArgumentPasses(flags[n], rawArgs) {
        var i :| 0 <= i < |order| && order[i] == n;
        assert es[i] == flags[n];
      }
    }
  }

  /** A run succeeds exactly when extraction finds a token for every
      parameter, every parameter then passes its validator, the flag parser
      accepts the remaining tokens, and every flag then passes its check;
      none of this depends on the orders in which the maps are visited. */
  lemma RunCommandSucceedsIff(name: string, cmd: Command, args: seq<string>, paramOrder: seq<string>,
                              checkOrder: seq<string>, flagOrder: seq<string>, parseFlags: FlagParser)
    requires 2 <= |args| && OrdersFit(cmd, paramOrder, checkOrder, flagOrder)
    ensures var e := ExtractFor(cmd, args, paramOrder);
      RunCommand(name, cmd, args, paramOrder, checkOrder, flagOrder, parseFlags).error.None? <==>
        e.failure.None? &&
        (forall n :: n in cmd.params ==> ParameterPasses(BindParams(cmd, paramOrder, e.values).params[n])) &&
        parseFlags(name, e.rest).Success? &&
        forall n :: n in cmd.flags ==> ArgumentPasses(ApplyParsed(cmd.flags, parseFlags(name, e.rest).value)[n], args)
  {
    var e := ExtractFor(cmd, args, paramOrder);
    var c1 := BindParams(cmd, paramOrder, e.values);
    ParameterScanOrderFree(c1.params, checkOrder);
    if parseFlags(name, e.rest).Success? {
      ArgumentScanOrderFree(ApplyParsed(cmd.flags, parseFlags(name, e.rest).value), flagOrder, args);
    }
  }

  /** The flags change only once the flag parser has run: a run that stops at
      extraction or at parameter validation fails and leaves every flag as it
      was. */
  lemma FlagsUntouchedBeforeFlagParse(name: string, cmd: Command, args: seq<string>, paramOrder: seq<string>,
                                      checkOrder: seq<string>, flagOrder: seq<string>, parseFlags: FlagParser)
    requires 2 <= |args| && OrdersFit(cmd, paramOrder, checkOrder, flagOrder)
    ensures var e := ExtractFor(cmd, args, paramOrder);
      var o := RunCommand(name, cmd, args, paramOrder, checkOrder, flagOrder, parseFlags);
      (e.failure.Some? ==> o.error == e.failure && o.command.flags == cmd.flags) &&
      (e.failure.None? && (exists n :: n in cmd.params && !ParameterPasses(BindParams(cmd, paramOrder, e.values).params[n])) ==>
        o.error.Some? && o.error.value.ValidatorError? && o.command.flags == cmd.flags)
  {
    var e := ExtractFor(cmd, args, paramOrder);
    var c1 := BindParams(cmd, paramOrder, e.values);
    if e.failure.None? && exists n :: n in cmd.params && !ParameterPasses(c1.params[n]) {
      var n :| n in cmd.params && !ParameterPasses(c1.params[n]);
      var ds := InOrder(c1.params, checkOrder);
      var i :| 0 <= i < |checkOrder| && checkOrder[i] == n;
      assert !ParameterPasses(ds[i]);
      ParameterScanReportsFirstFailure(ds);
    }
  }

  /** Once extraction has found a token for every parameter and every bound
      parameter passes, the flag parser decides the rest: its failure is the
      run's error and leaves every flag as it was; otherwise the values it
      read are written into the flags and the error is the flag scan's. */
  lemma RunCommandAfterParameters(name: string, cmd: Command, args: seq<string>, paramOrder: seq<string>,
                                  checkOrder: seq<string>, flagOrder: seq<string>, parseFlags: FlagParser)
    requires 2 <= |args| && OrdersFit(cmd, paramOrder, checkOrder, flagOrder)
    requires ExtractFor(cmd, args, paramOrder).failure.None?
    requires forall n :: n in cmd.params ==>
               ParameterPasses(BindParams(cmd, paramOrder, ExtractFor(cmd, args, paramOrder).values).params[n])
    ensures var parsed := parseFlags(name, ExtractFor(cmd, args, paramOrder).rest);
      var o := RunCommand(name, cmd, args, paramOrder, checkOrder, flagOrder, parseFlags);
      (parsed.Failure? ==> o.error == Some(parsed.error) && o.command.flags == cmd.flags) &&
      (parsed.Success? ==> o.command.flags == ApplyParsed(cmd.flags, parsed.value) &&
                           o.error == ValidateArguments(InOrder(o.command.flags, flagOrder), args))
  {
    var e := ExtractFor(cmd, args, paramOrder);
    var c1 := BindParams(cmd, paramOrder, e.values);
    ParameterScanOrderFree(c1.params, checkOrder);
    assert ValidateParameters(InOrder(c1.params, checkOrder)).None?;
    var o := RunCommand(name, cmd, args, paramOrder, checkOrder, flagOrder, parseFlags);
    match parseFlags(name, e.rest)
    case Failure(flagError) =>
      assert o == Outcome(c1, Some(flagError));
    case Success(values) =>
      assert o.command == c1.(flags := ApplyParsed(cmd.flags, values));
  }

  /** The four steps on one command, computed on a copy of the command; the
      caller stores the result back in the registry. */
  method RunSteps(name: string, cmd: Command, args: seq<string>, paramOrder: seq<string>,
                  checkOrder: seq<string>, flagOrder: seq<string>, parseFlags: FlagParser)
    returns (result: Command, err: Option<Error>)
    requires 2 <= |args| && OrdersFit(cmd, paramOrder, checkOrder, flagOrder)
    ensures Outcome(result, err) == RunCommand(name, cmd, args, paramOrder, checkOrder, flagOrder, parseFlags)
  {
    var ps := ParamList(cmd.params, paramOrder);
    var rest, bound := ParseParameters(args[2..], ps);
    result := cmd.(params := StoreParams(cmd.params, paramOrder, bound));
    if rest.Failure? {
      return result, Some(rest.error);
    }
    err := ValidateParameters(InOrder(result.params, checkOrder));
    if err.Some? {
      return result, err;
    }
    var parsed := parseFlags(name, rest.value);
    if parsed.Failure? {
      return result, Some(parsed.error);
    }
    result := result.(flags := ApplyParsed(result.flags, parsed.value));
    err := ValidateArguments(InOrder(result.flags, flagOrder), args);
  }

  /** The registry: sub-commands keyed by name. */
  class CLI {
    var commands: map<string, Command>

    ghost predicate Valid()
      reads this
    {
      forall n :: n in commands ==> CommandValid(commands[n])
    }

    /** An empty registry. */
    constructor ()
      ensures Valid() && commands == map[]
    {
      commands := map[];
    }

    /** Adds (or replaces) the sub-command `name` with an empty command. */
    method AddCommand(name: string, handler: ErrorHandling)
      requires Valid()
      modifies this
      ensures Valid()
      ensures commands == old(commands)[name := EmptyCommand(handler)]
    {
      commands := commands[name := EmptyCommand(handler)];
    }

    /** Registers a flag in the sub-command `cmdName`. `TypeInvalid` is
        reported and changes nothing, whether or not the sub-command exists;
        any other tag needs the sub-command to exist. */
    method AddCommandArgs(cmdName: string, decl: FlagDecl) returns (err: Option<Error>)
      requires Valid()
      requires decl.flag.argType != TypeInvalid ==> cmdName in commands
      requires MatchesType(decl.flag.argType, decl.flag.defaultValue)
      requires decl.flag.argType != TypeInvalid ==> decl.flag.name !in commands[cmdName].flags
      modifies this
      ensures Valid()
      ensures decl.flag.argType == TypeInvalid ==>
                err == Some(InvalidArgumentType(TypeInvalid)) && commands == old(commands)
      ensures cmdName in old(commands) ==>
        var r := RegisterFlag(old(commands)[cmdName], decl);
        (r.Failure? ==> err == Some(r.error) && commands == old(commands)) &&
        (r.Success? ==> err == None && commands == old(commands)[cmdName := r.value])
    {
      match BindFlag(decl.flag)
      case Failure(e) =>
        return Some(e);
      case Success(arg) =>
        var current := commands[cmdName];
        commands := commands[cmdName := current.(flags := current.flags[decl.flag.name := FlagEntry(arg, decl.validate)])];
        return None;
    }

    /** Registers a parameter in the sub-command `cmdName`. `TypeInvalid` is
        reported and changes nothing, whether or not the sub-command exists;
        any other tag needs the sub-command to exist. */
    method AddCommandParameters(cmdName: string, decl: ParamDecl) returns (err: Option<Error>)
      requires Valid()
      requires decl.param.argType != TypeInvalid ==> cmdName in commands
      modifies this
      ensures Valid()
      ensures decl.param.argType == TypeInvalid ==>
                err == Some(InvalidParameterType(TypeInvalid)) && commands == old(commands)
      ensures cmdName in old(commands) ==>
        var r := RegisterParam(old(commands)[cmdName], decl);
        (r.Failure? ==> err == Some(r.error) && commands == old(commands)) &&
        (r.Success? ==> err == None && commands == old(commands)[cmdName := r.value])
    {
      if decl.param.argType == TypeInvalid {
        return Some(InvalidParameterType(decl.param.argType));
      }
      var current := commands[cmdName];
      commands := commands[cmdName := current.(params := current.params[decl.param.name := decl])];
      return None;
    }

    /** Parses the raw arguments `args` (program name first). Fewer than two
        arguments and an unknown sub-command name fail before anything
        changes; otherwise the selected command runs the four steps of
        `RunCommand`, and the values bound along the way stay bound. */
    method Parse(args: seq<string>, paramOrder: seq<string>, checkOrder: seq<string>, flagOrder: seq<string>,
                 parseFlags: FlagParser)
      returns (err: Option<Error>)
      requires Valid()
      requires 2 <= |args| && args[1] in commands ==> OrdersFit(commands[args[1]], paramOrder, checkOrder, flagOrder)
      modifies this
      ensures Valid()
      ensures |args| < 2 ==> err == Some(InsufficientArguments) && commands == old(commands)
      ensures 2 <= |args| && args[1] !in old(commands) ==>
                err == Some(UnknownCommand(args[1])) && commands == old(commands)
      ensures 2 <= |args| && args[1] in old(commands) ==>
                var o := RunCommand(args[1], old(commands)[args[1]], args, paramOrder, checkOrder, flagOrder, parseFlags);
                commands == old(commands)[args[1] := o.command] && err == o.error
    {
      if |args| < 2 {
        return Some(InsufficientArguments);
      }
      var name := args[1];
      if name !in commands {
        return Some(UnknownCommand(name));
      }
      var cmd := commands[name];
      cmd, err := RunSteps(name, cmd, args, paramOrder, checkOrder, flagOrder, parseFlags);
      commands := commands[name := cmd];
    }

    /** One iteration of `CreateCLI`: adds the sub-command, then its flags,
        then its parameters, stopping at the first error. On success the
        registry holds the built command under `name` and nothing else has
        changed. */
    method AddSubCommand(name: string, sub: SubCommand) returns (err: Option<Error>)
      requires Valid() && WellDeclared(sub)
      modifies this
      ensures Valid()
      ensures BuildCommand(sub).Failure? ==> err == Some(BuildCommand(sub).error)
      ensures BuildCommand(sub).Success? ==> err == None && commands == old(commands)[name := BuildCommand(sub).value]
    {
      AddCommand(name, sub.errorHandler);
      ghost var empty := EmptyCommand(sub.errorHandler);
      err := AddFlagDecls(name, sub.flags);
      if err.Some? {
        return;
      }
      ghost var flagged := commands[name];
      UpdateTwice(old(commands), name, empty, flagged);
      err := AddParamDecls(name, sub.parameters);
      if err.None? {
        UpdateTwice(old(commands), name, flagged, commands[name]);
      }
    }

    /** The flag loop of `CreateCLI` for the sub-command `name`: registers
        the declarations in order and stops at the first error. */
    method AddFlagDecls(name: string, decls: seq<FlagDecl>) returns (err: Option<Error>)
      requires Valid() && name in commands
      requires DefaultsMatch(decls)
      requires DistinctNames(decls) && NamesAbsent(decls, commands[name].flags)
      modifies this
      ensures Valid()
      ensures var r := AddFlags(old(commands)[name], decls);
        (r.Failure? ==> err == Some(r.error)) &&
        (r.Success? ==> err == None && commands == old(commands)[name := r.value])
    {
      var rest := decls;
      while rest != []
        invariant Valid() && name in commands && commands == old(commands)[name := commands[name]]
        invariant DefaultsMatch(rest) && DistinctNames(rest) && NamesAbsent(rest, commands[name].flags)
        invariant AddFlags(old(commands)[name], decls) == AddFlags(commands[name], rest)
      {
        ghost var before := commands[name];
        err := AddCommandArgs(name, rest[0]);
        if err.Some? {
          return;
        }
        UpdateTwice(old(commands), name, before, commands[name]);
        RegisterKeepsRestAbsent(before, rest);
        rest := rest[1..];
      }
      err := None;
    }

    /** The parameter loop of `CreateCLI` for the sub-command `name`:
        registers the declarations in order through `AddCommandParameters`
        and stops at the first error, with the outcome `AddParams` gives. */
    method AddParamDecls(name: string, decls: seq<ParamDecl>) returns (err: Option<Error>)
      requires Valid() && name in commands
      modifies this
      ensures Valid()
      ensures var r := AddParams(old(commands)[name], decls);
        (r.Failure? ==> err == Some(r.error)) &&
        (r.Success? ==> err == None && commands == old(commands)[name := r.value])
    {
      var rest := decls;
      while rest != []
        invariant Valid() && name in commands && commands == old(commands)[name := commands[name]]
        invariant AddParams(old(commands)[name], decls) == AddParams(commands[name], rest)
      {
        ghost var before := commands[name];
        err := AddCommandParameters(name, rest[0]);
        if err.Some? {
          return;
        }
        UpdateTwice(old(commands), name, before, commands[name]);
        rest := rest[1..];
      }
      err := None;
    }
  }

  /** The registry after `CreateCLI` has visited `order[..i]`: every command
      held is the successful build of its declaration, and every name visited
      is held. */
  ghost predicate Registered(commands: map<string, Command>, results: map<string, Result<Command>>,
                             order: seq<string>, i: nat)
  {
    (forall n :: n in commands ==> n in results && results[n].Success? && commands[n] == results[n].value) &&
    (forall j :: 0 <= j < i && j < |order| ==> order[j] in commands)
  }

  /** Registering the next successful build keeps `Registered`. */
  lemma RegisteredStep(before: map<string, Command>, after: map<string, Command>,
                       results: map<string, Result<Command>>, order: seq<string>, i: nat)
    requires i < |order| && Registered(before, results, order, i)
    requires order[i] in results && results[order[i]].Success?
    requires after == before[order[i] := results[order[i]].value]
    ensures Registered(after, results, order, i + 1)
  {
  }

  /** Builds a registry from sub-command declarations visited in the order
      `order` (an enumeration of the map's keys). It succeeds exactly when
      every declaration builds, and then holds exactly the built commands;
      otherwise it returns no registry and the error of the first declaration,
      in visiting order, that fails. */
  method CreateCLI(subs: map<string, SubCommand>, order: seq<string>) returns (cli: CLI?, err: Option<Error>)
    requires IsEnumeration(order, subs.Keys)
    requires forall n :: n in subs ==> WellDeclared(subs[n])
    ensures err == None <==> forall n :: n in subs ==> BuildCommand(subs[n]).Success?
    ensures err == None ==>
              cli != null && fresh(cli) && cli.Valid() && cli.commands.Keys == subs.Keys &&
              forall n :: n in subs ==> cli.commands[n] == BuildCommand(subs[n]).value
    ensures err != None ==>
              cli == null &&
              exists i :: 0 <= i < |order| && BuildCommand(subs[order[i]]).Failure? &&
                err == Some(BuildCommand(subs[order[i]]).error) &&
                forall j :: 0 <= j < i ==> BuildCommand(subs[order[j]]).Success?
  {
    var c := new CLI();
    ghost var results := map n | n in subs :: BuildCommand(subs[n]);
    var i := 0;
    while i < |order|
      invariant 0 <= i <= |order|
      invariant fresh(c) && c.Valid()
      invariant Registered(c.commands, results, order, i)
    {
      var name := order[i];
      ghost var before := c.commands;
      var e := c.AddSubCommand(name, subs[name]);
      ghost var r := results[name];
      assert r == BuildCommand(subs[name]);
      if e.Some? {
        assert r.Failure?;
        return null, e;
      }
      RegisteredStep(before, c.commands, results, order, i);
      i := i + 1;
    }
    forall n | n in subs ensures n in c.commands {
      var j :| 0 <= j < |order| && order[j] == n;
    }
    return c, None;
  }
}

=== FILE: flags.dfy ===
/** Flag descriptors and the typed-value union bound to them (cli/flags.go;
    cli/argument.go declares the same shapes under the name `Argument`).

    The descriptor of a flag and the validator attached to it are kept side
    by side rather than one inside the other: the validator receives the
    typed argument, which embeds the descriptor, so a descriptor holding its
    own validator would be a type defined in terms of functions over itself. */
module Flags {
  import opened CliTypes
  import opened Strings

  /** The declaration of one flag: its type tag, name, default value,
      whether it is required, and its help text. */
  datatype Flag = Flag(argType: ArgType, name: string, defaultValue: Value, required: bool, helpMsg: string)
  {
    /** The textual presence check: some raw token contains `--<name>`. */
    method IsPresent(rawArgs: seq<string>) returns (present: bool)
      ensures present <==> Present(name, rawArgs)
    {
      present := false;
      var i := 0;
      while i < |rawArgs|
        invariant 0 <= i <= |rawArgs|
        invariant present <==> exists j :: 0 <= j < i && Contains(rawArgs[j], "--" + name)
      {
        present := present || Contains(rawArgs[i], "--" + name);
        i := i + 1;
      }
    }
  }

  /** A user validation callback: `None` accepts, `Some(message)` rejects. */
  type FlagValidator = TypedArgument -> Option<string>

  /** A flag as a caller declares it: the descriptor and its optional validator. */
  datatype FlagDecl = FlagDecl(flag: Flag, validate: Option<FlagValidator>)

  /** The bound value of a flag: one variant per value kind, each carrying the
      current value and the descriptor it was created from. */
  datatype TypedArgument =
    | StringArgument(stringValue: string, flag: Flag)
    | IntArgument(intValue: int, flag: Flag)
    | BoolArgument(boolValue: bool, flag: Flag)
  {
    /** The type tag named by the variant. */
    function Kind(): ArgType
    {
      match this
      case StringArgument(_, _) => TypeString
      case IntArgument(_, _) => TypeInt
      case BoolArgument(_, _) => TypeBool
    }

    /** The bound value as a dynamically typed value. */
    function Current(): (v: Value)
      ensures MatchesType(Kind(), v) && v != Nil
    {
      match this
      case StringArgument(s, _) => StringValue(s)
      case IntArgument(i, _) => IntValue(i)
      case BoolArgument(b, _) => BoolValue(b)
    }

    /** The string accessor: answers only for a string-valued argument. */
    function GetString(): (r: Option<string>)
      ensures r.Some? <==> Kind() == TypeString
      ensures r.Some? ==> Current() == StringValue(r.value)
    {
      if StringArgument? then Some(stringValue) else None
    }

    /** The boolean accessor: answers only for a bool-valued argument. */
    function GetBool(): (r: Option<bool>)
      ensures r.Some? <==> Kind() == TypeBool
      ensures r.Some? ==> Current() == BoolValue(r.value)
    {
      if BoolArgument? then Some(boolValue) else None
    }

    /** The integer accessor: answers only for an int-valued argument. */
    function GetInt(): (r: Option<int>)
      ensures r.Some? <==> Kind() == TypeInt
      ensures r.Some? ==> Current() == IntValue(r.value)
    {
      if IntArgument? then Some(intValue) else None
    }

    /** The descriptor the argument was bound from, whatever the variant.
        Together with the one accessor that answers, it determines the
        argument. */
    function GetArg(): (f: Flag)
      ensures GetString().Some? ==> this == StringArgument(GetString().value, f)
      ensures GetInt().Some? ==> this == IntArgument(GetInt().value, f)
      ensures GetBool().Some? ==> this == BoolArgument(GetBool().value, f)
    {
      flag
    }

    /** What the flag parser writes through the argument's value slot: a value
        of the argument's own kind replaces the current one; any other value
        cannot be stored in the slot and leaves the argument as it is. */
    function WithValue(v: Value): (r: TypedArgument)
      ensures r.GetArg() == GetArg() && r.Kind() == Kind()
      ensures MatchesType(Kind(), v) ==> r.Current() == v
      ensures !MatchesType(Kind(), v) ==> r == this
    {
      match (this, v)
      case (StringArgument(_, f), StringValue(s)) => StringArgument(s, f)
      case (IntArgument(_, f), IntValue(i)) => IntArgument(i, f)
      case (BoolArgument(_, f), BoolValue(b)) => BoolArgument(b, f)
      case _ => this
    }
  }

  /** The variant agrees with the type tag of its own descriptor, as every
      argument created by registration does. */
  predicate WellTyped(a: TypedArgument)
  {
    a.Kind() == a.GetArg().argType
  }

  /** A flag as the command stores it: the bound argument and its validator. */
  datatype FlagEntry = FlagEntry(arg: TypedArgument, validate: Option<FlagValidator>)

  /** The presence check as a predicate: some raw token contains `--<name>`.
      A longer flag name that starts with `name` counts as well. */
  predicate Present(name: string, rawArgs: seq<string>)
  {
    exists i :: 0 <= i < |rawArgs| && Contains(rawArgs[i], "--" + name)
  }

  /** Exactly one of the three typed accessors answers for any argument: the
      one of its own variant, with the value it holds. For a well-typed
      argument it is the accessor its descriptor's type names, and every
      variant hands back the descriptor it embeds. */
  lemma ExactlyOneAccessor(a: TypedArgument)
    ensures (if a.GetString().Some? then 1 else 0) + (if a.GetBool().Some? then 1 else 0)
          + (if a.GetInt().Some? then 1 else 0) == 1
    ensures a.StringArgument? ==> a.GetString() == Some(a.stringValue) && a.GetBool().None? && a.GetInt().None?
    ensures a.IntArgument? ==> a.GetInt() == Some(a.intValue) && a.GetString().None? && a.GetBool().None?
    ensures a.BoolArgument? ==> a.GetBool() == Some(a.boolValue) && a.GetString().None? && a.GetInt().None?
    ensures a.GetArg() == a.flag
    ensures WellTyped(a) ==> (a.GetString().Some? <==> a.GetArg().argType == TypeString)
    ensures WellTyped(a) ==> (a.GetBool().Some? <==> a.GetArg().argType == TypeBool)
    ensures WellTyped(a) ==> (a.GetInt().Some? <==> a.GetArg().argType == TypeInt)
  {
  }

  /** Rebinding a value never changes the descriptor or well-typedness,
      writing back the value already held changes nothing, and writing the
      same value twice is writing it once. */
  lemma WithValueKeepsDescriptor(a: TypedArgument, v: Value)
    ensures a.WithValue(v).GetArg() == a.GetArg()
    ensures WellTyped(a) ==> WellTyped(a.WithValue(v))
    ensures a.WithValue(a.Current()) == a
    ensures a.WithValue(v).WithValue(v) == a.WithValue(v)
  {
  }

  /** No flag is present in an empty token list. */
  lemma NotPresentInEmptyArgs(name: string)
    ensures !Present(name, [])
  {
  }

  /** Presence is monotone: appending tokens never makes a present flag absent. */
  lemma PresentMonotone(name: string, rawArgs: seq<string>, more: seq<string>)
    requires Present(name, rawArgs)
    ensures Present(name, rawArgs + more)
  {
    var i :| 0 <= i < |rawArgs| && Contains(rawArgs[i], "--" + name);
    assert (rawArgs + more)[i] == rawArgs[i];
  }

  /** Tokens shorter than `--<name>` never make the flag present. */
  lemma ShortTokensAbsent(name: string, rawArgs: seq<string>)
    requires forall i :: 0 <= i < |rawArgs| ==> |rawArgs[i]| < |name| + 2
    ensures !Present(name, rawArgs)
  {
    forall i | 0 <= i < |rawArgs| ensures !Contains(rawArgs[i], "--" + name) {
      assert |"--" + name| == |name| + 2;
    }
  }

  /** A token that is exactly `--<name>` makes the flag present. */
  lemma ExactTokenIsPresent(name: string, rawArgs: seq<string>, i: nat)
    requires i < |rawArgs| && rawArgs[i] == "--" + name
    ensures Present(name, rawArgs)
  {
    PrefixIsContained(rawArgs[i], "--" + name);
  }

  /** The check is textual: `--filename` makes the flag `file` present. */
  lemma LongerNameCountsAsPresent()
    ensures Present("file", ["--filename"])
  {
    PrefixIsContained("--filename", "--file");
    assert ["--filename"][0] == "--filename";
  }
}

=== FILE: parameter.dfy ===
/** Positional parameters (cli/parameter.go): a descriptor bound by a fixed
    index into the tokens that follow the sub-command name, whose value slot
    the positional extractor fills. */
module Parameters {
  import opened CliTypes

  /** One positional parameter: type tag, name, position and the value bound
      to it (`Nil` until extraction stores a token). A negative position
      would make the extractor index out of bounds, so positions are `nat`. */
  datatype Parameter = Parameter(argType: ArgType, name: string, position: nat, value: Value)
  {
    /** The presence check as written: more raw arguments (program name and
        sub-command name included) than `position + 1`. */
    function IsPresent(rawArgs: seq<string>): (r: bool)
      ensures r <==> position + 1 < |rawArgs|
    {
      |rawArgs| > position + 1
    }

    /** The presence check with the two leading raw arguments (program name
        and sub-command name) accounted for: a token exists at `position`
        among the tokens that follow the sub-command name. */
    function IsPresentAfterCommand(rawArgs: seq<string>): (r: bool)
      ensures r <==> 2 <= |rawArgs| && position < |rawArgs[2..]|
    {
      |rawArgs| > position + 2
    }

    /** The integer view: present only when the value holds an int. */
    function GetInt(): (r: Option<int>)
      ensures r.Some? <==> value.IntValue?
      ensures r.Some? ==> value == IntValue(r.value)
    {
      match value
      case IntValue(i) => Some(i)
      case _ => None
    }

    /** The boolean view: present only when the value holds a bool. */
    function GetBool(): (r: Option<bool>)
      ensures r.Some? <==> value.BoolValue?
      ensures r.Some? ==> value == BoolValue(r.value)
    {
      match value
      case BoolValue(b) => Some(b)
      case _ => None
    }

    /** The string view always yields a string: a string value unchanged, any
        other value through `format`, which stands for Go's default formatting. */
    function GetString(format: Value -> string): (r: string)
      ensures value.StringValue? ==> r == value.s
      ensures !value.StringValue? ==> r == format(value)
    {
      match value
      case StringValue(s) => s
      case _ => format(value)
    }
  }

  /** A user validation callback on a parameter: `None` accepts. */
  type ParamValidator = Parameter -> Option<string>

  /** A parameter together with its optional validator, as declared and as
      the command stores it. */
  datatype ParamDecl = ParamDecl(param: Parameter, validate: Option<ParamValidator>)

  /** Once a token is stored, the parameter reads back as that string and as
      nothing else, whatever its declared type. */
  lemma StoredTokenReadsAsString(p: Parameter, token: string, format: Value -> string)
    ensures p.(value := StringValue(token)).GetString(format) == token
    ensures p.(value := StringValue(token)).GetInt() == None
    ensures p.(value := StringValue(token)).GetBool() == None
  {
  }
}

=== FILE: positional.dfy ===
/** Positional extraction (cli/cli.go, `removeIndex` and `parseParameters`):
    each parameter, in the order given, takes the token at its position in a
    working copy of the tokens after the sub-command name, and that token is
    spliced out, shifting every later token one place to the left. */
module Positional {
  import opened CliTypes
  import opened Parameters

  /** `s` without the element at `index`, later elements shifted left. */
  function RemoveIndex(s: seq<string>, index: nat): (r: seq<string>)
    requires index < |s|
    ensures |r| == |s| - 1
    ensures forall k :: 0 <= k < index ==> r[k] == s[k]
    ensures forall k :: index <= k < |r| ==> r[k] == s[k + 1]
    ensures multiset(r) + multiset{s[index]} == multiset(s)
  {
    var r := s[..index] + s[index + 1..];
    assert s == s[..index] + [s[index]] + s[index + 1..];
    r
  }

  /** The outcome of extraction: the tokens left in the working sequence, the
      tokens read so far (one per parameter handled, in order) and the error
      that stopped it, if any. */
  datatype Extraction = Extraction(rest: seq<string>, values: seq<string>, failure: Option<Error>)

  /** Extraction as a function of the working sequence and the parameters in
      processing order. Parameter `i` is handled against a working sequence
      of `|working| - i` tokens and fails when its position is not below that. */
  function Extract(working: seq<string>, ps: seq<Parameter>): (e: Extraction)
    ensures |e.values| <= |ps|
    ensures e.failure.None? ==> |e.values| == |ps| && |e.rest| + |ps| == |working|
    ensures e.failure.Some? ==> |e.values| < |ps| && |e.values| <= |working|
    ensures e.failure.Some? ==>
      ps[|e.values|].position >= |working| - |e.values| &&
      e.failure.value == PositionOutOfRange(ps[|e.values|].position, |working| - |e.values|)
    decreases |ps|
  {
    if ps == [] then
      Extraction(working, [], None)
    else if ps[0].position >= |working| then
      Extraction(working, [], Some(PositionOutOfRange(ps[0].position, |working|)))
    else
      var e := Extract(RemoveIndex(working, ps[0].position), ps[1..]);
      e.(values := [working[ps[0].position]] + e.values)
  }

  /** The parameters after binding: the first `|values|` of them hold, as a
      string, the token read for them; the others are untouched. */
  function Bind(ps: seq<Parameter>, values: seq<string>): (r: seq<Parameter>)
    requires |values| <= |ps|
    ensures |r| == |ps|
    ensures forall i :: 0 <= i < |values| ==> r[i] == ps[i].(value := StringValue(values[i]))
    ensures forall i :: |values| <= i < |ps| ==> r[i] == ps[i]
  {
    seq(|ps|, i requires 0 <= i < |ps| => if i < |values| then ps[i].(value := StringValue(values[i])) else ps[i])
  }

  /** A sequence that agrees with `Bind(ps, values)` at every index is it. */
  lemma BindPointwise(ps: seq<Parameter>, values: seq<string>, bound: seq<Parameter>)
    requires |values| <= |ps| == |bound|
    requires forall j :: 0 <= j < |values| ==> bound[j] == ps[j].(value := StringValue(values[j]))
    requires forall j :: |values| <= j < |ps| ==> bound[j] == ps[j]
    ensures bound == Bind(ps, values)
  {
  }

  /** Binding one more token changes only the next parameter. */
  lemma BindStep(ps: seq<Parameter>, values: seq<string>, token: string)
    requires |values| < |ps|
    ensures Bind(ps, values)[|values| := ps[|values|].(value := StringValue(token))] == Bind(ps, values + [token])
  {
    BindPointwise(ps, values + [token], Bind(ps, values)[|values| := ps[|values|].(value := StringValue(token))]);
  }

  /** `e` with `consumed` prepended to the tokens it read. */
  function Prepend(consumed: seq<string>, e: Extraction): Extraction
  {
    e.(values := consumed + e.values)
  }

  /** Prepending twice is prepending the concatenation. */
  lemma PrependTwice(first: seq<string>, second: seq<string>, e: Extraction)
    ensures Prepend(first, Prepend(second, e)) == Prepend(first + second, e)
  {
    assert first + (second + e.values) == (first + second) + e.values;
  }

  /** One step of extraction: the first parameter, when in range, reads the
      token at its position and the rest run on the spliced sequence. */
  lemma ExtractStep(working: seq<string>, ps: seq<Parameter>)
    requires ps != [] && ps[0].position < |working|
    ensures Extract(working, ps) ==
            Prepend([working[ps[0].position]], Extract(RemoveIndex(working, ps[0].position), ps[1..]))
  {
  }

  /** The extraction loop. It copies the tokens, then for each parameter in
      order either fails because the position is out of range or stores the
      token at the position in the parameter and splices it out. With no
      parameters the tokens come back as they are. Parameters handled before
      a failure keep the value they were given. */
  method ParseParameters(osArgs: seq<string>, params: seq<Parameter>)
    returns (result: Result<seq<string>>, bound: seq<Parameter>)
    ensures |params| == 0 ==> result == Success(osArgs) && bound == params
    ensures var e := Extract(osArgs, params);
      bound == Bind(params, e.values) &&
      result == (if e.failure.None? then Success(e.rest) else Failure(e.failure.value))
  {
    if |params| == 0 {
      return Success(osArgs), params;
    }
    var tempArgs := osArgs;
    bound := params;
    ghost var consumed: seq<string> := [];
    var i := 0;
    assert params[0..] == params;
    assert Prepend([], Extract(osArgs, params)) == Extract(osArgs, params);
    BindPointwise(params, [], params);
    while i < |params|
      invariant 0 <= i <= |params| && |consumed| == i && |bound| == |params|
      invariant Extract(osArgs, params) == Prepend(consumed, Extract(tempArgs, params[i..]))
      invariant bound == Bind(params, consumed)
    {
      var param := params[i];
      assert params[i..][0] == param;
      if param.position >= |tempArgs| {
        return Failure(PositionOutOfRange(param.position, |tempArgs|)), bound;
      }
      var token := tempArgs[param.position];
      ExtractStep(tempArgs, params[i..]);
      assert params[i..][1..] == params[i + 1..];
      PrependTwice(consumed, [token], Extract(RemoveIndex(tempArgs, param.position), params[i + 1..]));
      BindStep(params, consumed, token);
      bound := bound[i := param.(value := StringValue(token))];
      consumed := consumed + [token];
      tempArgs := RemoveIndex(tempArgs, param.position);
      i := i + 1;
    }
    assert params[i..] == [];
    return Success(tempArgs), bound;
  }

  /** Every parameter handled without failure had its position below the
      length of the working sequence at its step, `|working| - j`. */
  lemma {:induction false} HandledPositionsInRange(working: seq<string>, ps: seq<Parameter>)
    ensures forall j :: 0 <= j < |Extract(working, ps).values| ==> ps[j].position < |working| - j
    decreases |ps|
  {
    if ps != [] && ps[0].position < |working| {
      var tail := RemoveIndex(working, ps[0].position);
      HandledPositionsInRange(tail, ps[1..]);
      forall j | 0 < j < |Extract(working, ps).values| ensures ps[j].position < |working| - j {
        assert ps[1..][j - 1] == ps[j];
      }
    }
  }

  /** Extraction fails exactly when some parameter's position is not below
      the length of the working sequence at its step, `|working| - i`; it
      stops at the first such parameter, having read one token per earlier one. */
  lemma ExtractFailsIff(working: seq<string>, ps: seq<Parameter>)
    ensures Extract(working, ps).failure.Some? <==>
            exists i :: 0 <= i < |ps| && ps[i].position >= |working| - i
  {
    var e := Extract(working, ps);
    HandledPositionsInRange(working, ps);
    if e.failure.None? {
      forall i | 0 <= i < |ps| ensures ps[i].position < |working| - i {
        assert i < |e.values|;
      }
    }
  }

  /** On success no token is lost or duplicated: the tokens read plus the
      tokens left are exactly the input tokens. */
  lemma {:induction false} ExtractConservesTokens(working: seq<string>, ps: seq<Parameter>)
    requires Extract(working, ps).failure.None?
    ensures multiset(Extract(working, ps).rest) + multiset(Extract(working, ps).values) == multiset(working)
    decreases |ps|
  {
    if ps != [] {
      var p := ps[0].position;
      ExtractConservesTokens(RemoveIndex(working, p), ps[1..]);
    }
  }

  /** Extraction reads only positions: parameters that agree on their
      positions extract the same tokens, whatever values they hold. */
  lemma {:induction false} ExtractIgnoresValues(working: seq<string>, ps: seq<Parameter>, qs: seq<Parameter>)
    requires |ps| == |qs| && forall i :: 0 <= i < |ps| ==> ps[i].position == qs[i].position
    ensures Extract(working, ps) == Extract(working, qs)
    decreases |ps|
  {
    if ps != [] && ps[0].position < |working| {
      assert forall i :: 0 <= i < |ps| - 1 ==> ps[1..][i] == ps[i + 1] && qs[1..][i] == qs[i + 1];
      ExtractIgnoresValues(RemoveIndex(working, ps[0].position), ps[1..], qs[1..]);
    }
  }

  /** Processing parameters by strictly decreasing position makes extraction
      independent of the earlier splices: every parameter reads the token at
      its position in the ORIGINAL sequence. */
  lemma {:induction false} DescendingPositionsReadOriginal(working: seq<string>, ps: seq<Parameter>)
    requires forall i, j :: 0 <= i < j < |ps| ==> ps[i].position > ps[j].position
    requires ps != [] ==> ps[0].position < |working|
    ensures Extract(working, ps).failure.None?
    ensures forall i :: 0 <= i < |ps| ==>
              ps[i].position < |working| && Extract(working, ps).values[i] == working[ps[i].position]
    decreases |ps|
  {
    if ps != [] {
      var p := ps[0].position;
      var tail := RemoveIndex(working, p);
      DescendingPositionsReadOriginal(tail, ps[1..]);
      var e := Extract(working, ps);
      forall i | 0 <= i < |ps| ensures ps[i].position < |working| && e.values[i] == working[ps[i].position] {
        if i > 0 {
          assert ps[1..][i - 1] == ps[i];
        }
      }
    }
  }

  /** Extraction is order-sensitive. Over the tokens `x y z`, parameters at
      positions 2, 1 and 0, handled in that order, read `z`, `y` and `x` and
      leave nothing. */
  lemma DescendingOrderReadsAll()
    ensures var a, b, c := Parameter(TypeString, "a", 0, Nil), Parameter(TypeString, "b", 1, Nil),
                          Parameter(TypeString, "c", 2, Nil);
      Extract(["x", "y", "z"], [c, b, a]) == Extraction([], ["z", "y", "x"], None)
  {
    var a, b, c := Parameter(TypeString, "a", 0, Nil), Parameter(TypeString, "b", 1, Nil),
                   Parameter(TypeString, "c", 2, Nil);
    var working, ps := ["x", "y", "z"], [c, b, a];
    DescendingPositionsReadOriginal(working, ps);
    var e := Extract(working, ps);
    assert e.values[0] == "z" && e.values[1] == "y" && e.values[2] == "x";
    assert e.values == ["z", "y", "x"];
  }

  /** The same three parameters handled in ascending order fail: after `x`
      and then `z` (which the first splice moved to position 1) are taken,
      one token is left for position 2. */
  lemma AscendingOrderFails()
    ensures var a, b, c := Parameter(TypeString, "a", 0, Nil), Parameter(TypeString, "b", 1, Nil),
                          Parameter(TypeString, "c", 2, Nil);
      Extract(["x", "y", "z"], [a, b, c]) == Extraction(["y"], ["x", "z"], Some(PositionOutOfRange(2, 1)))
  {
    var a, b, c := Parameter(TypeString, "a", 0, Nil), Parameter(TypeString, "b", 1, Nil),
                   Parameter(TypeString, "c", 2, Nil);
    assert Extract(["y"], [c]) == Extraction(["y"], [], Some(PositionOutOfRange(2, 1)));
    assert Extract(["y", "z"], [b, c]) == Extraction(["y"], ["z"], Some(PositionOutOfRange(2, 1))) by {
      assert RemoveIndex(["y", "z"], 1) == ["y"];
      assert [b, c][1..] == [c];
    }
    assert RemoveIndex(["x", "y", "z"], 0) == ["y", "z"];
    assert [a, b, c][1..] == [b, c];
  }

  /** The presence check of a parameter as written counts the program and
      sub-command names as if they were tokens: with only those two raw
      arguments, a parameter at position 0 is reported present although
      extraction has no token to give it. */
  lemma ParameterIsPresentOffByOne()
    ensures var p := Parameter(TypeString, "instance_type", 0, Nil);
      p.IsPresent(["prog", "test"]) && Extract(["prog", "test"][2..], [p]).failure.Some?
  {
  }

  /** For every parameter and raw arguments, the presence check as written
      and extraction of that parameter alone disagree exactly when the tokens
      after the sub-command name number `position`: the check then says
      present and extraction has no token. In every other case they agree. */
  lemma IsPresentVsExtraction(p: Parameter, rawArgs: seq<string>)
    requires 2 <= |rawArgs|
    ensures p.IsPresent(rawArgs) <==> (Extract(rawArgs[2..], [p]).failure.None? || |rawArgs[2..]| == p.position)
    ensures (p.IsPresent(rawArgs) && Extract(rawArgs[2..], [p]).failure.Some?) <==> |rawArgs| == p.position + 2
    ensures !p.IsPresent(rawArgs) ==> Extract(rawArgs[2..], [p]).failure.Some?
  {
  }

  /** The corrected presence check agrees with extraction of that parameter
      alone: it holds exactly when a token exists for it. */
  lemma IsPresentAfterCommandMatchesExtraction(p: Parameter, rawArgs: seq<string>)
    requires 2 <= |rawArgs|
    ensures p.IsPresentAfterCommand(rawArgs) <==> Extract(rawArgs[2..], [p]).failure.None?
  {
  }
}

=== FILE: scenario.dfy ===
/** The example program of the repository (test/test.go): one sub-command
    `test` with a required string flag `file` whose validator demands `.ext`,
    a boolean flag `recursive` (default false), an integer flag `count`
    (default 4) and a positional parameter `instance_type` at position 0
    whose validator demands `s3`. The lemmas state what the engine yields
    on it. */
module Scenario {
  import opened CliTypes
  import opened Strings
  import opened Flags
  import opened Parameters
  import opened Positional
  import opened Validation
  import opened Cli

  const FileFlag := Flag(TypeString, "file", StringValue(""), true, "File to import (*.ext)")
  const RecursiveFlag := Flag(TypeBool, "recursive", BoolValue(false), false,
                              "Whether to recursively import files [default: false]")
  const CountFlag := Flag(TypeInt, "count", IntValue(4), false, "How many files to count [default: 4]")
  const InstanceType := Parameter(TypeString, "instance_type", 0, Nil)

  /** The raw token `--file`, spelled as the presence check builds it. */
  const FileToken := "--" + "file"

  const FileMessage := "filetype must be .ext"
  const InstanceMessage := "invalid instance type, must be 's3"

  /** The validator of `file`: its string value must contain `.ext`. */
  function FileValidator(a: TypedArgument): Option<string>
  {
    match a.GetString()
    case Some(s) => if Contains(s, ".ext") then None else Some(FileMessage)
    case None => Some(FileMessage)
  }

  /** The validator of `instance_type`: its value, read as a string, must
      contain `s3`. The parameter holds either nothing (printed `<nil>`) or
      a token, so the formatter only ever sees `Nil`. */
  function InstanceValidator(p: Parameter): Option<string>
  {
    if Contains(p.GetString(v => "<nil>"), "s3") then None else Some(InstanceMessage)
  }

  const TestCommand := SubCommand(
    [FlagDecl(FileFlag, Some(FileValidator)), FlagDecl(RecursiveFlag, None), FlagDecl(CountFlag, None)],
    [ParamDecl(InstanceType, Some(InstanceValidator))],
    ExitOnError)

  /** The command registration builds for `test`. */
  const Built := Command(
    ExitOnError,
    map["file" := FlagEntry(StringArgument("", FileFlag), Some(FileValidator)),
        "recursive" := FlagEntry(BoolArgument(false, RecursiveFlag), None),
        "count" := FlagEntry(IntArgument(4, CountFlag), None)],
    map["instance_type" := ParamDecl(InstanceType, Some(InstanceValidator))])

  /** The only enumeration of the one parameter name, used both to extract
      and to validate. */
  const ParamOrder := ["instance_type"]

  /** Registering the three flags of `test` in order binds each to its
      default. */
  lemma TestFlagsRegister()
    ensures DefaultsMatch(TestCommand.flags)
    ensures AddFlags(EmptyCommand(ExitOnError), TestCommand.flags) == Success(Built.(params := map[]))
  {
    var fs := TestCommand.flags;
    var c0 := EmptyCommand(ExitOnError);
    var c1 := RegisterFlag(c0, fs[0]).value;
    var c2 := RegisterFlag(c1, fs[1]).value;
    var c3 := RegisterFlag(c2, fs[2]).value;
    assert AddFlags(c3, fs[3..]) == Success(c3);
    assert AddFlags(c2, fs[2..]) == Success(c3);
    assert AddFlags(c1, fs[1..]) == Success(c3);
    assert c3.flags == Built.flags;
  }

  /** The declarations of `test` are registrable and build `Built`: the
      three flags bound to their defaults and the parameter unset. */
  lemma TestCommandBuilds()
    ensures WellDeclared(TestCommand)
    ensures BuildCommand(TestCommand) == Success(Built)
    ensures CommandValid(Built)
  {
    TestFlagsRegister();
    var c := Built.(params := map[]);
    var p := TestCommand.parameters;
    assert AddParams(c, p) == AddParams(RegisterParam(c, p[0]).value, p[1..]);
  }

  /** `.ext` occurs in `a.ext`. */
  lemma ExtAccepted()
    ensures Contains("a.ext", ".ext")
  {
    assert OccursAt("a.ext", ".ext", 1);
  }

  /** `.ext` does not occur in `data.txt`. */
  lemma ExtRejected()
    ensures !Contains("data.txt", ".ext")
  {
    forall k | 0 <= k <= 4 ensures !OccursAt("data.txt", ".ext", k) {
      if k < 4 {
        assert "data.txt"[k..k + 4][0] != '.';
      } else {
        assert "data.txt"[k..k + 4][1] != 'e';
      }
    }
  }

  /** `s3` occurs in `s3` and not in `ec2`. */
  lemma InstanceTokens()
    ensures Contains("s3", "s3")
    ensures !Contains("ec2", "s3")
  {
    assert OccursAt("s3", "s3", 0);
    forall k | 0 <= k <= 1 ensures !OccursAt("ec2", "s3", k) {
      assert "ec2"[k..k + 2][0] != 's';
    }
  }

  /** The parameters of `test` once `instance_type` holds `token`. */
  function BoundParams(token: string): map<string, ParamDecl>
  {
    map["instance_type" := ParamDecl(InstanceType.(value := StringValue(token)), Some(InstanceValidator))]
  }

  /** With `token` after the sub-command name, extraction gives `token` to
      `instance_type` and leaves the tokens after it. */
  lemma ExtractsInstance(token: string, more: seq<string>)
    ensures ExtractFor(Built, ["prog", "test", token] + more, ParamOrder) == Extraction(more, [token], None)
  {
    var args := ["prog", "test", token] + more;
    assert args[2..] == [token] + more;
    assert ParamList(Built.params, ParamOrder) == [InstanceType];
    assert RemoveIndex([token] + more, 0) == more;
    assert [InstanceType][1..] == [];
    assert Extract(more, []) == Extraction(more, [], None);
    assert ([token] + more)[InstanceType.position] == token;
    assert Extract([token] + more, [InstanceType]) == Extraction(more, [token], None);
  }

  /** Binding `token` stores it in `instance_type` and keeps its validator. */
  lemma BindsInstance(token: string)
    ensures BindParams(Built, ParamOrder, [token]).params == BoundParams(token)
  {
    var c := BindParams(Built, ParamOrder, [token]);
    assert c.params.Keys == BoundParams(token).Keys;
    assert c.params["instance_type"] == BoundParams(token)["instance_type"];
  }

  /** The parameter check of `test` once `instance_type` holds `token`. */
  lemma InstanceCheck(token: string)
    ensures ValidateParameters(InOrder(BoundParams(token), ParamOrder)) ==
            if Contains(token, "s3") then None else Some(ValidatorError(InstanceMessage))
  {
    assert InOrder(BoundParams(token), ParamOrder) == [BoundParams(token)["instance_type"]];
  }

  /** The run of `test` on `token` followed by `more`: when `token` passes,
      it comes down to the flag parser and the flag scan; a parser failure is
      the run's error and leaves the flags as declared. */
  lemma RunWithInstance(token: string, more: seq<string>, flagOrder: seq<string>, parseFlags: FlagParser)
    requires IsEnumeration(flagOrder, Built.flags.Keys)
    ensures var args := ["prog", "test", token] + more;
      var o := RunCommand("test", Built, args, ParamOrder, ParamOrder, flagOrder, parseFlags);
      o.command.params == BoundParams(token) &&
      (!Contains(token, "s3") ==> o.error == Some(ValidatorError(InstanceMessage)) && o.command.flags == Built.flags) &&
      (Contains(token, "s3") && parseFlags("test", more).Success? ==>
        var flags := ApplyParsed(Built.flags, parseFlags("test", more).value);
        o.command.flags == flags && o.error == ValidateArguments(InOrder(flags, flagOrder), args)) &&
      (Contains(token, "s3") && parseFlags("test", more).Failure? ==>
        o.error == Some(parseFlags("test", more).error) && o.command.flags == Built.flags)
  {
    ExtractsInstance(token, more);
    BindsInstance(token);
    InstanceCheck(token);
  }

  /** The flags of `test` once `file` holds `name`. */
  function FlagsWithFile(name: string): map<string, FlagEntry>
  {
    map["file" := FlagEntry(StringArgument(name, FileFlag), Some(FileValidator)),
        "recursive" := FlagEntry(BoolArgument(false, RecursiveFlag), None),
        "count" := FlagEntry(IntArgument(4, CountFlag), None)]
  }

  /** Applying a parsed `file` value stores it; applying nothing changes
      nothing. */
  lemma ApplyFile(name: string)
    ensures ApplyParsed(Built.flags, map["file" := StringValue(name)]) == FlagsWithFile(name)
    ensures ApplyParsed(Built.flags, map[]) == Built.flags
    ensures Built.flags == FlagsWithFile("")
  {
    var m := map["file" := StringValue(name)];
    assert Built.flags == FlagsWithFile("");
    var r := ApplyParsed(Built.flags, m);
    assert r.Keys == FlagsWithFile(name).Keys;
    forall n | n in r ensures r[n] == FlagsWithFile(name)[n] {
      if n == "file" {
        assert r[n] == Built.flags[n].(arg := Built.flags[n].arg.WithValue(m[n]));
      } else {
        assert n !in m;
      }
    }
  }

  /** When `file` is the only flag that fails, with the error `err`, the flag
      scan reports `err` whatever the visiting order. */
  lemma OnlyFileFails(flags: map<string, FlagEntry>, flagOrder: seq<string>, args: seq<string>, err: Error)
    requires IsEnumeration(flagOrder, flags.Keys) && "file" in flags
    requires CheckArgument(flags["file"], args) == Some(err)
    requires forall n :: n in flags && n != "file" ==> ArgumentPasses(flags[n], args)
    ensures ValidateArguments(InOrder(flags, flagOrder), args) == Some(err)
  {
    var es := InOrder(flags, flagOrder);
    var k :| 0 <= k < |flagOrder| && flagOrder[k] == "file";
    assert !ArgumentPasses(es[k], args);
    ArgumentScanReportsFirstFailure(es, args);
    var i :| 0 <= i < |es| && ValidateArguments(es, args) == CheckArgument(es[i], args) &&
             forall j :: 0 <= j < i ==> ArgumentPasses(es[j], args);
    assert flagOrder[i] == "file";
  }

  /** The flag scan of `test` comes down to the check of `file`: the two
      other flags are optional and have no validator. */
  lemma FlagScanIsFileCheck(name: string, flagOrder: seq<string>, args: seq<string>)
    requires IsEnumeration(flagOrder, FlagsWithFile(name).Keys)
    ensures ValidateArguments(InOrder(FlagsWithFile(name), flagOrder), args) ==
            if !Present("file", args) then Some(RequiredMissing("file"))
            else if Contains(name, ".ext") then None
            else Some(ValidatorError(FileMessage))
  {
    var flags := FlagsWithFile(name);
    assert forall n :: n in flags && n != "file" ==> ArgumentPasses(flags[n], args);
    var check := CheckArgument(flags["file"], args);
    if check.None? {
      ArgumentScanOrderFree(flags, flagOrder, args);
    } else {
      OnlyFileFails(flags, flagOrder, args, check.value);
    }
  }

  /** What the flags of `test` answer once `file` holds `name`. */
  lemma FlagsWithFileAnswer(name: string)
    ensures FlagsWithFile(name).Keys == {"file", "recursive", "count"}
    ensures FlagsWithFile(name)["file"].arg.GetString() == Some(name)
    ensures FlagsWithFile(name)["recursive"].arg.GetBool() == Some(false)
    ensures FlagsWithFile(name)["count"].arg.GetInt() == Some(4)
  {
  }

  /** The raw arguments `prog test s3 --file <name>` mention `file`. */
  lemma FileInvocation(name: string)
    ensures ["prog", "test", "s3", FileToken, name] == ["prog", "test", "s3"] + [FileToken, name]
    ensures Present("file", ["prog", "test", "s3", FileToken, name])
  {
    ExactTokenIsPresent("file", ["prog", "test", "s3", FileToken, name], 3);
  }

  /** `prog test s3 --file <name>`, when the flag parser reads
      `file = <name>`: the parameter holds `s3`, `file` holds `name`, and the
      run fails exactly when `name` lacks `.ext`, with the validator's message. */
  lemma RunWithFile(name: string, flagOrder: seq<string>, parseFlags: FlagParser)
    requires IsEnumeration(flagOrder, Built.flags.Keys)
    requires parseFlags("test", [FileToken, name]) == Success(map["file" := StringValue(name)])
    ensures var o := RunCommand("test", Built, ["prog", "test", "s3", FileToken, name],
                                ParamOrder, ParamOrder, flagOrder, parseFlags);
      o.command.params == BoundParams("s3") && o.command.flags == FlagsWithFile(name) &&
      o.error == if Contains(name, ".ext") then None else Some(ValidatorError(FileMessage))
  {
    var args := ["prog", "test", "s3", FileToken, name];
    FileInvocation(name);
    InstanceTokens();
    RunWithInstance("s3", [FileToken, name], flagOrder, parseFlags);
    ApplyFile(name);
    FlagScanIsFileCheck(name, flagOrder, args);
  }

  /** `prog test s3 --file a.ext` succeeds when the flag parser reads
      `file = a.ext`: the parameter holds `s3`, `file` holds `a.ext`, and
      `recursive` and `count` keep their defaults. */
  lemma AcceptsValidInvocation(flagOrder: seq<string>, parseFlags: FlagParser)
    requires IsEnumeration(flagOrder, Built.flags.Keys)
    requires parseFlags("test", [FileToken, "a.ext"]) == Success(map["file" := StringValue("a.ext")])
    ensures var o := RunCommand("test", Built, ["prog", "test", "s3", FileToken, "a.ext"],
                                ParamOrder, ParamOrder, flagOrder, parseFlags);
      o.error == None &&
      o.command.params["instance_type"].param.value == StringValue("s3") &&
      o.command.flags["file"].arg.GetString() == Some("a.ext") &&
      o.command.flags["recursive"].arg.GetBool() == Some(false) &&
      o.command.flags["count"].arg.GetInt() == Some(4)
  {
    ExtAccepted();
    RunWithFile("a.ext", flagOrder, parseFlags);
    FlagsWithFileAnswer("a.ext");
  }

  /** `prog test s3 --file data.txt` fails with the `file` validator's
      message, whichever order the flags are visited in. */
  lemma RejectsWrongExtension(flagOrder: seq<string>, parseFlags: FlagParser)
    requires IsEnumeration(flagOrder, Built.flags.Keys)
    requires parseFlags("test", [FileToken, "data.txt"]) == Success(map["file" := StringValue("data.txt")])
    ensures RunCommand("test", Built, ["prog", "test", "s3", FileToken, "data.txt"],
                       ParamOrder, ParamOrder, flagOrder, parseFlags).error
            == Some(ValidatorError(FileMessage))
  {
    ExtRejected();
    RunWithFile("data.txt", flagOrder, parseFlags);
  }

  /** No token of `prog test s3` mentions `--file`. */
  lemma NoFileToken()
    ensures !Present("file", ["prog", "test", "s3"])
  {
    var args := ["prog", "test", "s3"];
    assert |args[0]| == 4 && |args[1]| == 4 && |args[2]| == 2;
    ShortTokensAbsent("file", args);
  }

  /** `prog test s3` with no `--file` token fails because the required flag
      is missing, whichever order the flags are visited in. */
  lemma RejectsMissingFile(flagOrder: seq<string>, parseFlags: FlagParser)
    requires IsEnumeration(flagOrder, Built.flags.Keys)
    requires parseFlags("test", []) == Success(map[])
    ensures RunCommand("test", Built, ["prog", "test", "s3"], ParamOrder, ParamOrder, flagOrder, parseFlags).error
            == Some(RequiredMissing("file"))
  {
    var args := ["prog", "test", "s3"];
    assert args == ["prog", "test", "s3"] + [];
    InstanceTokens();
    RunWithInstance("s3", [], flagOrder, parseFlags);
    ApplyFile("");
    NoFileToken();
    FlagScanIsFileCheck("", flagOrder, args);
  }

  /** `prog test ec2 --file a.ext` fails with the parameter validator's
      message before any flag is parsed, and leaves the flags unchanged. */
  lemma RejectsWrongInstance(flagOrder: seq<string>, parseFlags: FlagParser)
    requires IsEnumeration(flagOrder, Built.flags.Keys)
    ensures var o := RunCommand("test", Built, ["prog", "test", "ec2", "--file", "a.ext"],
                                ParamOrder, ParamOrder, flagOrder, parseFlags);
      o.error == Some(ValidatorError(InstanceMessage)) && o.command.flags == Built.flags
  {
    assert ["prog", "test", "ec2", "--file", "a.ext"] == ["prog", "test", "ec2"] + ["--file", "a.ext"];
    InstanceTokens();
    RunWithInstance("ec2", ["--file", "a.ext"], flagOrder, parseFlags);
  }

  /** `prog test` has no token for `instance_type`: extraction fails with
      position 0 out of a working sequence of length 0, although the
      parameter's presence check as written reports it present. */
  lemma RejectsMissingInstance(flagOrder: seq<string>, parseFlags: FlagParser)
    requires IsEnumeration(flagOrder, Built.flags.Keys)
    ensures RunCommand("test", Built, ["prog", "test"], ParamOrder, ParamOrder, flagOrder, parseFlags).error
            == Some(PositionOutOfRange(0, 0))
    ensures InstanceType.IsPresent(["prog", "test"]) && !InstanceType.IsPresentAfterCommand(["prog", "test"])
  {
    assert ["prog", "test"][2..] == [];
    assert ParamList(Built.params, ParamOrder) == [InstanceType];
  }
}

=== FILE: strings.dfy ===
/** The substring test the presence checks rely on (Go `strings.Contains`). */
module Strings {

  /** `sub` occurs in `s` starting at index `k`. */
  predicate OccursAt(s: string, sub: string, k: int)
  {
    0 <= k && k + |sub| <= |s| && s[k..k + |sub|] == sub
  }

  /** `sub` is a prefix of `s`. */
  predicate HasPrefix(s: string, sub: string)
  {
    |sub| <= |s| && s[..|sub|] == sub
  }

  /** Substring search by scanning the start position from the left: true
      exactly when `sub` occurs somewhere in `s` (so always for `sub == ""`). */
  function Contains(s: string, sub: string): (r: bool)
    ensures r <==> exists k :: OccursAt(s, sub, k)
    decreases |s|
  {
    if |sub| > |s| then
      false
    else if HasPrefix(s, sub) then
      assert OccursAt(s, sub, 0);
      true
    else
      var r := Contains(s[1..], sub);
      if r then
        var k :| OccursAt(s[1..], sub, k);
        assert s[k + 1..k + 1 + |sub|] == s[1..][k..k + |sub|];
        assert OccursAt(s, sub, k + 1);
        true
      else
        forall k | OccursAt(s, sub, k) ensures OccursAt(s[1..], sub, k - 1) {
          ShiftOccurrence(s, sub, k);
        }
        false
  }

  /** An occurrence other than a prefix is an occurrence in the tail. */
  lemma ShiftOccurrence(s: string, sub: string, k: int)
    requires OccursAt(s, sub, k) && !HasPrefix(s, sub)
    ensures OccursAt(s[1..], sub, k - 1)
  {
    assert s[1..][k - 1..k - 1 + |sub|] == s[k..k + |sub|];
  }

  /** Any string that starts with `sub` contains it. */
  lemma PrefixIsContained(s: string, sub: string)
    requires HasPrefix(s, sub)
    ensures Contains(s, sub)
  {
    assert OccursAt(s, sub, 0);
  }
}

=== FILE: types.dfy ===
/** Vocabulary shared by every part of the CLI builder: optional values, the
    four-case type tag of a declared field, the dynamically typed values a
    field can hold, and the kinds of error the engine reports. */
module CliTypes {

  /** An optional value; `None` stands for Go's nil pointer or nil error. */
  datatype Option<+T> = None | Some(value: T)

  /** The type tag of a flag or positional parameter. `TypeInvalid` is
      representable so that registration can reject it. */
  datatype ArgType = TypeString | TypeBool | TypeInt | TypeInvalid

  /** A dynamically typed value (Go `interface{}`), `Nil` for an unset one. */
  datatype Value = Nil | StringValue(s: string) | BoolValue(b: bool) | IntValue(i: int)

  /** True when `v` is a value of the kind that the type tag `t` names.
      A `TypeInvalid` tag admits any value: nothing ever reads it. */
  predicate MatchesType(t: ArgType, v: Value)
  {
    match t
    case TypeString => v.StringValue?
    case TypeBool => v.BoolValue?
    case TypeInt => v.IntValue?
    case TypeInvalid => true
  }

  /** What a flag-set error-handling policy says to do on a parse error. */
  datatype ErrorHandling = ContinueOnError | ExitOnError | PanicOnError

  /** The kinds of error the engine returns, in place of formatted messages. */
  datatype Error =
    | InvalidArgumentType(argType: ArgType)
    | InvalidParameterType(paramType: ArgType)
    | PositionOutOfRange(position: nat, available: nat)
    | InsufficientArguments
    | UnknownCommand(command: string)
    | RequiredMissing(flagName: string)
    | ValidatorError(message: string)
    | FlagParseError(reason: string)

  /** The outcome of an operation that either yields a value or fails. */
  datatype Result<+T> = Success(value: T) | Failure(error: Error)

  /** `order` lists every key of `keys` exactly once: one enumeration order
      of a Go map with those keys. */
  predicate IsEnumeration(order: seq<string>, keys: set<string>)
  {
    (forall i :: 0 <= i < |order| ==> order[i] in keys) &&
    (forall k :: k in keys ==> k in order) &&
    (forall i, j :: 0 <= i < j < |order| ==> order[i] != order[j])
  }

  /** The values of `m` in the enumeration order `order`: what ranging over
      the map yields when it visits the keys in that order. */
  function InOrder<V>(m: map<string, V>, order: seq<string>): (vs: seq<V>)
    requires forall i :: 0 <= i < |order| ==> order[i] in m
    ensures |vs| == |order| && forall i :: 0 <= i < |order| ==> vs[i] == m[order[i]]
  {
    seq(|order|, i requires 0 <= i < |order| => m[order[i]])
  }
}

=== FILE: validation.dfy ===
/** The validation pass (cli/cli.go, `validateArguments` and
    `validateParameters`): early-exit scans that return the first error met. */
module Validation {
  import opened CliTypes
  import opened Strings
  import opened Flags
  import opened Parameters

  /** The check of one flag: a required flag absent from the raw tokens fails
      before its validator is consulted; otherwise a validator, if set,
      decides. */
  function CheckArgument(entry: FlagEntry, rawArgs: seq<string>): (r: Option<Error>)
    ensures entry.arg.GetArg().required && !Present(entry.arg.GetArg().name, rawArgs) ==>
              r == Some(RequiredMissing(entry.arg.GetArg().name))
    ensures r == None <==> ArgumentPasses(entry, rawArgs)
    ensures r != None && (!entry.arg.GetArg().required || Present(entry.arg.GetArg().name, rawArgs)) ==>
              r == Some(ValidatorError(entry.validate.value(entry.arg).value))
  {
    var flag := entry.arg.GetArg();
    if flag.required && !Present(flag.name, rawArgs) then
      Some(RequiredMissing(flag.name))
    else if entry.validate.None? then
      None
    else
      match entry.validate.value(entry.arg)
      case None => None
      case Some(message) => Some(ValidatorError(message))
  }

  /** A flag passes when it is present or not required, and its validator,
      if any, accepts its bound argument. */
  predicate ArgumentPasses(entry: FlagEntry, rawArgs: seq<string>)
  {
    (entry.arg.GetArg().required ==> Present(entry.arg.GetArg().name, rawArgs)) &&
    (entry.validate.Some? ==> entry.validate.value(entry.arg) == None)
  }

  /** The scan over the flags in the given order, stopping at the first
      failure. It succeeds exactly when every flag passes. */
  function ValidateArguments(entries: seq<FlagEntry>, rawArgs: seq<string>): (r: Option<Error>)
    ensures r == None <==> forall i :: 0 <= i < |entries| ==> ArgumentPasses(entries[i], rawArgs)
  {
    if entries == [] then
      None
    else
      var first := CheckArgument(entries[0], rawArgs);
      if first != None then first else ValidateArguments(entries[1..], rawArgs)
  }

  /** The check of one parameter: only its validator, if set, can fail it. */
  function CheckParameter(decl: ParamDecl): (r: Option<Error>)
    ensures r == None <==> ParameterPasses(decl)
    ensures r != None ==> r == Some(ValidatorError(decl.validate.value(decl.param).value))
  {
    if decl.validate.None? then
      None
    else
      match decl.validate.value(decl.param)
      case None => None
      case Some(message) => Some(ValidatorError(message))
  }

  /** A parameter passes when it has no validator or its validator accepts it. */
  predicate ParameterPasses(decl: ParamDecl)
  {
    decl.validate.Some? ==> decl.validate.value(decl.param) == None
  }

  /** The scan over the parameters in the given order, stopping at the first
      failure. It succeeds exactly when every parameter passes, so parameters
      without a validator never make it fail. */
  function ValidateParameters(decls: seq<ParamDecl>): (r: Option<Error>)
    ensures r == None <==> forall i :: 0 <= i < |decls| ==> ParameterPasses(decls[i])
  {
    if decls == [] then
      None
    else
      var first := CheckParameter(decls[0]);
      if first != None then first else ValidateParameters(decls[1..])
  }

  /** A failing flag scan reports the error of the first flag that fails. */
  lemma {:induction false} ArgumentScanReportsFirstFailure(entries: seq<FlagEntry>, rawArgs: seq<string>)
    requires ValidateArguments(entries, rawArgs) != None
    ensures exists i :: 0 <= i < |entries| && ValidateArguments(entries, rawArgs) == CheckArgument(entries[i], rawArgs) &&
              forall j :: 0 <= j < i ==> ArgumentPasses(entries[j], rawArgs)
  {
    if CheckArgument(entries[0], rawArgs) == None {
      var tail := entries[1..];
      ArgumentScanReportsFirstFailure(tail, rawArgs);
      var i :| 0 <= i < |tail| && ValidateArguments(tail, rawArgs) == CheckArgument(tail[i], rawArgs) &&
               forall j :: 0 <= j < i ==> ArgumentPasses(tail[j], rawArgs);
      assert tail[i] == entries[i + 1];
      forall j | 0 < j < i + 1 ensures ArgumentPasses(entries[j], rawArgs) {
        assert tail[j - 1] == entries[j];
      }
    }
  }

  /** A failing parameter scan reports the error of the first failing one. */
  lemma {:induction false} ParameterScanReportsFirstFailure(decls: seq<ParamDecl>)
    requires ValidateParameters(decls) != None
    ensures exists i :: 0 <= i < |decls| && ValidateParameters(decls) == CheckParameter(decls[i]) &&
              forall j :: 0 <= j < i ==> ParameterPasses(decls[j])
  {
    if CheckParameter(decls[0]) == None {
      var tail := decls[1..];
      ParameterScanReportsFirstFailure(tail);
      var i :| 0 <= i < |tail| && ValidateParameters(tail) == CheckParameter(tail[i]) &&
               forall j :: 0 <= j < i ==> ParameterPasses(tail[j]);
      assert tail[i] == decls[i + 1];
      forall j | 0 < j < i + 1 ensures ParameterPasses(decls[j]) {
        assert tail[j - 1] == decls[j];
      }
    }
  }

  /** Whether the flag scan passes does not depend on the order in which the
      flags are visited (only which error is reported does). */
  lemma ArgumentOrderIrrelevant(a: seq<FlagEntry>, b: seq<FlagEntry>, rawArgs: seq<string>)
    requires forall i :: 0 <= i < |a| ==> exists j :: 0 <= j < |b| && b[j] == a[i]
    requires forall j :: 0 <= j < |b| ==> exists i :: 0 <= i < |a| && a[i] == b[j]
    ensures ValidateArguments(a, rawArgs) == None <==> ValidateArguments(b, rawArgs) == None
  {
    if ValidateArguments(a, rawArgs) == None {
      forall j | 0 <= j < |b| ensures ArgumentPasses(b[j], rawArgs) {
        var i :| 0 <= i < |a| && a[i] == b[j];
      }
    }
    if ValidateArguments(b, rawArgs) == None {
      forall i | 0 <= i < |a| ensures ArgumentPasses(a[i], rawArgs) {
        var j :| 0 <= j < |b| && b[j] == a[i];
      }
    }
  }

  /** Whether the parameter scan passes does not depend on visiting order. */
  lemma ParameterOrderIrrelevant(a: seq<ParamDecl>, b: seq<ParamDecl>)
    requires forall i :: 0 <= i < |a| ==> exists j :: 0 <= j < |b| && b[j] == a[i]
    requires forall j :: 0 <= j < |b| ==> exists i :: 0 <= i < |a| && a[i] == b[j]
    ensures ValidateParameters(a) == None <==> ValidateParameters(b) == None
  {
    if ValidateParameters(a) == None {
      forall j | 0 <= j < |b| ensures ParameterPasses(b[j]) {
        var i :| 0 <= i < |a| && a[i] == b[j];
      }
    }
    if ValidateParameters(b) == None {
      forall i | 0 <= i < |a| ensures ParameterPasses(a[i]) {
        var j :| 0 <= j < |b| && b[j] == a[i];
      }
    }
  }

  /** A required flag that no raw token mentions makes the scan fail, in
      whatever position it is visited. */
  lemma RequiredAbsentFails(entries: seq<FlagEntry>, rawArgs: seq<string>, k: nat)
    requires k < |entries|
    requires entries[k].arg.GetArg().required && !Present(entries[k].arg.GetArg().name, rawArgs)
    ensures ValidateArguments(entries, rawArgs) != None
  {
    assert !ArgumentPasses(entries[k], rawArgs);
  }
}
